=== FILE: README.md ===
# Healthcare data cleaner: a Dafny model

This project models the pure core of `pd_data_cleaner.py`. That script takes a raw
healthcare CSV table and turns it into an analytics-ready one. It also produces three
pieces of SQL text: the `CREATE TABLE` statement for the cleaned table, the
extended-property statements that describe the table and its columns, and one
`INSERT` statement per row.

The model works on a data frame given as an ordered list of columns. Each column has a
label, a pandas dtype tag, the `str()` rendering of each of its cells, and whether
every one of its values is a Python `str` (`Frames`).
The modules follow the script's structure:

- `Strings`, `Ascii`: the Python string operations the script uses over ASCII: `lower`,
  `strip`, whitespace `split`, `join`, splitting on one character, decimal rendering.
- `NameConvention`: `human_name_convention`, which applies `lower().title().strip()`
  and then collapses inner whitespace. `title()` is modelled as CPython's loop: a letter
  is upper-cased exactly when the character before it is not a letter.
- `Labels`: the two renames at the start of `clean_data`.
- `Schema`: the dtype-to-SQL-type table, the per-column inference loop and the
  `CREATE TABLE` text, with a reader that parses the DDL back.
- `Cleaning`: `clean_data` as a whole. It relabels the columns, converts the two date
  columns, normalises the patient names, infers the types and builds the DDL. The
  model infers the types with the corrected loop (Schema.InferColumns), which reports
  an unrecognised dtype as an error; `CleanDataAsWritten` is `clean_data` with the loop
  as written, and the two are proved to agree wherever the model succeeds.
- `Inserts`: the `INSERT` serialiser, with a reader that parses the statements back.
- `Descriptions`: the three templates and `sql_description_generator`, with a reader
  that parses the generated text back into statements.

Each producer of text has a reader that parses its output back, and the main lemmas
are round trips through that reader. Each normaliser is proved idempotent and characterised pointwise.

The date parser `pd.to_datetime` is a parameter `parseDate` of the cleaning functions,
applied to each cell of the two date columns.

Three behaviours of the code are followed exactly:

- An object column with no rows gets the type `VARCHAR (nan)`. The maximum of no
  lengths is NaN in pandas, and line 36 renders it with `str` (Schema.VarcharOfEmptyColumn).
- The text type is written `VARCHAR (n)`, with a space before the parenthesis (line 41).
- `title()` upper-cases every letter that follows a non-letter, so `o'neil` becomes
  `O'Neil` (NameConvention.Title).

## Model

| member | source | states |
|---|---|---|
| NameConvention.Title | HealthCare_Dashboard/pd_data_cleaner.py:18 | `str.title()` keeps length and every non-letter; a letter keeps its case-insensitive identity and is upper-case exactly when the character before it is not a letter |
| NameConvention.TitleIgnoresCase | HealthCare_Dashboard/pd_data_cleaner.py:18 | lower-casing before `title()` makes no difference to the result |
| NameConvention.TitleIdempotent | HealthCare_Dashboard/pd_data_cleaner.py:18 | applying `title()` twice is the same as applying it once |
| NameConvention.TitleKeepsSpace | HealthCare_Dashboard/pd_data_cleaner.py:18 | `title()` leaves whitespace exactly where it was |
| NameConvention.LStripTitle | HealthCare_Dashboard/pd_data_cleaner.py:18 | stripping leading whitespace commutes with `title()` |
| NameConvention.SplitTitle | HealthCare_Dashboard/pd_data_cleaner.py:18-19 | the words of a title-cased string are the title-cased words of the string |
| NameConvention.TitleJoin | HealthCare_Dashboard/pd_data_cleaner.py:18-19 | title-casing space-joined words equals joining the title-cased words |
| NameConvention.HumanNameTitlesEachWord | HealthCare_Dashboard/pd_data_cleaner.py:17-20 | a normalised name is the name's whitespace-separated words, each title-cased, joined by single spaces |
| NameConvention.HumanNameWords | HealthCare_Dashboard/pd_data_cleaner.py:17-20 | splitting a normalised name gives back exactly the title-cased words of the input, in order |
| NameConvention.HumanNameWellSpaced | HealthCare_Dashboard/pd_data_cleaner.py:19 | a normalised name has no leading or trailing whitespace and only single spaces between words |
| NameConvention.HumanNameIdempotent | HealthCare_Dashboard/pd_data_cleaner.py:17-20 | normalising an already normalised name changes nothing |
| NameConvention.HumanNameTitleCased | HealthCare_Dashboard/pd_data_cleaner.py:17-20 | a normalised name is a fixed point of `title()`: every word starts upper-case and continues lower-case |
| Strings.Lower | HealthCare_Dashboard/pd_data_cleaner.py:18 | `lower()` maps every character through the ASCII lower-case mapping and keeps the length |
| Strings.Strip | HealthCare_Dashboard/pd_data_cleaner.py:18 | the stripped string neither starts nor ends with whitespace and is no longer than the input |
| Strings.StripSlice | HealthCare_Dashboard/pd_data_cleaner.py:18 | the stripped string is a slice of the input, and everything cut from either end of it is whitespace |
| Strings.LStripSuffix | HealthCare_Dashboard/pd_data_cleaner.py:18 | stripping leading whitespace keeps exactly the suffix of the input after that whitespace |
| Strings.Replace | HealthCare_Dashboard/pd_data_cleaner.py:28 | `replace(' ', '_')` keeps the length, puts `_` exactly where a space was, and changes nothing else |
| Strings.Split | HealthCare_Dashboard/pd_data_cleaner.py:19 | every piece of a whitespace `split()` is a non-empty word without whitespace |
| Strings.SplitLeadingWord | HealthCare_Dashboard/pd_data_cleaner.py:19 | a word followed by whitespace or by nothing is the first piece `split()` finds, and the rest of the text gives the remaining pieces |
| Strings.SplitLeadingSpace | HealthCare_Dashboard/pd_data_cleaner.py:19 | whitespace in front of the text adds no piece to `split()` |
| Strings.SplitStrip | HealthCare_Dashboard/pd_data_cleaner.py:18-19 | stripping before a whitespace `split()` does not change the words |
| Strings.SplitJoin | HealthCare_Dashboard/pd_data_cleaner.py:19 | joining words with single spaces and splitting again gives back the words |
| Strings.JoinWordsShape | HealthCare_Dashboard/pd_data_cleaner.py:19 | words joined with single spaces give text with no leading, trailing or doubled space |
| Strings.SplitOnJoin | HealthCare_Dashboard/pd_data_cleaner.py:149 | joining pieces free of a separator with that separator, then splitting on it, gives back the pieces |
| Strings.JoinSplitOn | HealthCare_Dashboard/pd_data_cleaner.py:149 | splitting on a character and joining with it gives back the original text |
| Strings.DecimalString | HealthCare_Dashboard/pd_data_cleaner.py:36 | the decimal rendering of a number is a non-empty digit string with no leading zero |
| Strings.DecimalRoundTrip | HealthCare_Dashboard/pd_data_cleaner.py:36 | parsing the decimal rendering of a number gives back the number |
| Labels.CleanLabel | HealthCare_Dashboard/pd_data_cleaner.py:28 | the first rename yields a label with no edge whitespace, no upper-case letter and no space, as long as the stripped input |
| Labels.NormaliseLabel | HealthCare_Dashboard/pd_data_cleaner.py:28-29 | both renames together always yield a clean label |
| Labels.NormaliseLabels | HealthCare_Dashboard/pd_data_cleaner.py:28-29 | the renames act on the labels one by one and keep their number and order |
| Labels.CleanLabelKeepsClean | HealthCare_Dashboard/pd_data_cleaner.py:28 | a label that is already clean passes the first rename unchanged |
| Labels.CleanLabelIdempotent | HealthCare_Dashboard/pd_data_cleaner.py:28 | the first rename applied twice equals the rename applied once |
| Labels.SynonymRenamesTwo | HealthCare_Dashboard/pd_data_cleaner.py:29 | the synonym table changes a label exactly when it is `name` or `age`, never renames a target again, and keeps labels clean |
| Labels.NormaliseLabelsIdempotent | HealthCare_Dashboard/pd_data_cleaner.py:28-29 | relabelling an already relabelled table changes no label |
| Schema.MaxLength | HealthCare_Dashboard/pd_data_cleaner.py:35-36 | the maximum cell length is absent exactly for an empty column, bounds every cell, and is attained by some cell |
| Schema.TypeToken | HealthCare_Dashboard/pd_data_cleaner.py:40-47 | a column gets an SQL type exactly when its dtype is one of the four recognised, and that type is a well-formed token |
| Schema.WidthText | HealthCare_Dashboard/pd_data_cleaner.py:35-36 | the width is `nan` for a column with no rows; otherwise it is a decimal that reads back as the length of some cell and bounds every cell's length, and it never holds `)` |
| Schema.VarcharIsLongest | HealthCare_Dashboard/pd_data_cleaner.py:40-41 | a non-empty object column is `VARCHAR (n)` with `n` the length of its longest cell |
| Schema.VarcharOfEmptyColumn | HealthCare_Dashboard/pd_data_cleaner.py:36 | an object column with no rows is `VARCHAR (nan)`, because pandas' maximum of no lengths is NaN |
| Schema.InferColumns | HealthCare_Dashboard/pd_data_cleaner.py:38-48 | inference succeeds exactly when no column has an unrecognised dtype; then it pairs each label with its column's type, in order; otherwise it names the first such column |
| Schema.AsWrittenAgreesWhenRecognised | HealthCare_Dashboard/pd_data_cleaner.py:38-48 | when every dtype is recognised, the loop as written computes the same types as the corrected inference |
| Schema.AsWrittenUnboundFirst | HealthCare_Dashboard/pd_data_cleaner.py:39-48 | as written, an unrecognised dtype in the first column raises `UnboundLocalError` |
| Schema.AsWrittenStaleToken | HealthCare_Dashboard/pd_data_cleaner.py:39-48 | as written, an unrecognised dtype after an `int64` column is silently given the stale token `INTEGER` |
| Schema.Definitions | HealthCare_Dashboard/pd_data_cleaner.py:50 | each column definition is the label, one space and the type, in column order |
| Schema.Ddl | HealthCare_Dashboard/pd_data_cleaner.py:50 | the DDL starts `CREATE TABLE healthcare_data (` and ends `);` |
| Schema.ReadTokenFront | HealthCare_Dashboard/pd_data_cleaner.py:41-47 | every type token is read back off the front of any text |
| Schema.DefinitionsRoundTrip | HealthCare_Dashboard/pd_data_cleaner.py:50 | the comma-joined definitions parse back to the label/type pairs |
| Schema.DdlRoundTrip | HealthCare_Dashboard/pd_data_cleaner.py:50 | the DDL of any space-free labels with valid tokens parses back to exactly those pairs |
| Schema.InferredInfoDescribable | HealthCare_Dashboard/pd_data_cleaner.py:38-50 | the pairs inferred for space-free labels are ones the DDL reader recovers |
| Cleaning.Relabel | HealthCare_Dashboard/pd_data_cleaner.py:28-29 | relabelling renames each column by both renames and changes nothing else |
| Cleaning.Lookup | HealthCare_Dashboard/pd_data_cleaner.py:31-33 | `df[label]` finds the first column with that label, or raises `KeyError` exactly when there is none |
| Cleaning.AsDates | HealthCare_Dashboard/pd_data_cleaner.py:31-32 | date conversion keeps the label and the row count, sets dtype datetime and parses every cell |
| Cleaning.WithHumanNames | HealthCare_Dashboard/pd_data_cleaner.py:33 | name conversion keeps label, dtype and row count, normalises every cell, and leaves only `str` values |
| Cleaning.WithHumanNamesNormalised | HealthCare_Dashboard/pd_data_cleaner.py:33 | after name conversion every cell is a fixed point of the name normaliser |
| Cleaning.ConvertColumn | HealthCare_Dashboard/pd_data_cleaner.py:31-33 | a missing label raises `KeyError`; a date conversion of a present label always goes through; the name conversion raises `AttributeError` exactly when the first matching column holds a value that is not a `str`; on success just the first matching column is replaced |
| Cleaning.HasLabelRelabel | HealthCare_Dashboard/pd_data_cleaner.py:28-31 | the relabelled table has a label exactly when some raw label normalises to it |
| Cleaning.NameColumnUnconverted | HealthCare_Dashboard/pd_data_cleaner.py:31-33 | the two date conversions leave the name column alone: the column the name conversion meets is the raw column, relabelled, with the same values and the same text-ness |
| Cleaning.CleanTableMissing | HealthCare_Dashboard/pd_data_cleaner.py:31-33 | cleaning fails with `KeyError` on the admission, discharge or name column, checked in that order; with all three present it fails with `AttributeError` when the name column holds a value that is not a `str`; it succeeds exactly when all three are present and the name column holds only `str` values; with a repeated renamed label the source raises instead (see Left out) |
| Cleaning.CleanTableColumns | HealthCare_Dashboard/pd_data_cleaner.py:28-33 | with distinct labels and the three columns present, cleaning succeeds exactly when the name column holds only `str` values, and then each cleaned column is its raw column relabelled and, for the two date columns and the name column, converted |
| Cleaning.CleanTableShape | HealthCare_Dashboard/pd_data_cleaner.py:28-33 | a cleaned table keeps the columns in order with normalised labels and row counts, and its name column is normalised |
| Cleaning.CleanDataSuccess | HealthCare_Dashboard/pd_data_cleaner.py:22-52 | with the corrected inference (Schema.InferColumns), a successful `clean_data` keeps the shape, normalises labels and names, and returns DDL that reads back as each cleaned label with its column's type |
| Cleaning.NoOthersAfterCleaning | HealthCare_Dashboard/pd_data_cleaner.py:31-32 | after conversion, no column has an unrecognised dtype exactly when only the date columns had one |
| Cleaning.CleanDataSucceeds | HealthCare_Dashboard/pd_data_cleaner.py:22-52 | with the corrected inference (Schema.InferColumns), distinct labels and the three required columns present, `clean_data` succeeds exactly when the name column holds only `str` values and no column other than the date columns has an unrecognised dtype |
| Cleaning.CleanDataAsWrittenAgrees | HealthCare_Dashboard/pd_data_cleaner.py:22-52 | wherever the model's `clean_data` succeeds, or fails before the type inference, `CleanDataAsWritten`, which keeps the loop of lines 39-48 as written, returns the same table and DDL; on distinct renamed labels that is the program's result (see Left out) |
| Cleaning.CleanDataAsWrittenWhenOthersOnlyDates | HealthCare_Dashboard/pd_data_cleaner.py:22-52 | with distinct labels and the three required columns present, when only the date columns have an unrecognised dtype, `clean_data` as written and the model agree |
| Inserts.Escape | HealthCare_Dashboard/pd_data_cleaner.py:146 | escaping never shortens a value and leaves values without a single quote unchanged |
| Inserts.Quoted | HealthCare_Dashboard/pd_data_cleaner.py:146 | every cell of the row is quoted, in order |
| Inserts.Statements | HealthCare_Dashboard/pd_data_cleaner.py:144-147 | one `INSERT` statement per row, in row order |
| Inserts.EscapeIsLiteralText | HealthCare_Dashboard/pd_data_cleaner.py:146 | an escaped value is literal text: every single quote in it is doubled, the form the catalog's descriptions at lines 55-56 use |
| Inserts.UnescapeEscape | HealthCare_Dashboard/pd_data_cleaner.py:146 | unescaping an escaped value gives back the value |
| Inserts.EscapeUnescape | HealthCare_Dashboard/pd_data_cleaner.py:146 | every literal text is the escaping of the value it stands for |
| Inserts.ReadQuoted | HealthCare_Dashboard/pd_data_cleaner.py:146 | a quoted escaped value reads back as the value when the text after its closing quote does not start with a quote |
| Inserts.ValueListRoundTrip | HealthCare_Dashboard/pd_data_cleaner.py:146 | the escaped value list of any row parses back to the row |
| Inserts.StatementRoundTrip | HealthCare_Dashboard/pd_data_cleaner.py:146-147 | the escaped `INSERT INTO schema.table VALUES (...);` of any row parses back to the row |
| Inserts.StatementsRoundTrip | HealthCare_Dashboard/pd_data_cleaner.py:144-147 | the escaped statements of any rows parse back to the rows |
| Inserts.InsertTextRoundTrip | HealthCare_Dashboard/pd_data_cleaner.py:144-149 | when no name or cell holds a line feed, the escaped newline-joined text splits back into the statements and parses back to the rows |
| Inserts.InsertTextVerbatimRoundTrip | HealthCare_Dashboard/pd_data_cleaner.py:144-149 | the text as written, without escaping, parses back to the rows when no cell holds a single quote or a line feed and no name holds a line feed |
| Inserts.VerbatimAgreesWithoutQuotes | HealthCare_Dashboard/pd_data_cleaner.py:146-147 | without single quotes in the cells, the statement as written equals the escaped one |
| Inserts.VerbatimBreaksOnApostrophe | HealthCare_Dashboard/pd_data_cleaner.py:146 | as written, the value `O'Neil` yields a value list that is not a valid literal list, while the escaped one parses back |
| Descriptions.ColumnStatements | HealthCare_Dashboard/pd_data_cleaner.py:125-131 | one column statement per catalog entry, in catalog order, with the description, schema, table and column in the template's argument order |
| Descriptions.Plan | HealthCare_Dashboard/pd_data_cleaner.py:110-131 | the table and source statements are included exactly when their argument is given, followed by all catalog columns |
| Descriptions.MatchFormat | HealthCare_Dashboard/pd_data_cleaner.py:71-99 | a filled template, with literal text in every field, matches the template again and gives back the field values |
| Descriptions.TemplatesAreWellFormed | HealthCare_Dashboard/pd_data_cleaner.py:71-99 | each template uses each of its arguments once, in order, and every field is closed by a single quote that is not doubled |
| Descriptions.HeadsDiffer | HealthCare_Dashboard/pd_data_cleaner.py:71-99 | no text starts with the heads of two different templates |
| Descriptions.ReadRendered | HealthCare_Dashboard/pd_data_cleaner.py:71-131 | a rendered statement reads back as that statement, whatever follows it |
| Descriptions.ReadRenderAll | HealthCare_Dashboard/pd_data_cleaner.py:124-131 | the concatenated renderings of literal statements read back as those statements |
| Descriptions.DescribeIsPlan | HealthCare_Dashboard/pd_data_cleaner.py:109-131 | the generated text is exactly the planned statements rendered one after another |
| Descriptions.DescribeRoundTrip | HealthCare_Dashboard/pd_data_cleaner.py:109-131 | with literal text everywhere, the generated text reads back as exactly the planned statements |
| Descriptions.DescribeColumnsAppend | HealthCare_Dashboard/pd_data_cleaner.py:125-131 | describing two catalogs one after the other is describing their concatenation |
| Descriptions.Unpack2 | HealthCare_Dashboard/pd_data_cleaner.py:109 | unpacking a string into two names succeeds exactly when it has two characters |
| Descriptions.CatalogIsLiteral | HealthCare_Dashboard/pd_data_cleaner.py:54-70 | every column and description of `column_descriptions` is literal text: the single quotes of the first five descriptions are doubled and the others have none |
| Descriptions.DescribeCatalogRoundTrip | HealthCare_Dashboard/pd_data_cleaner.py:54-131 | generating from `column_descriptions` with literal schema, table and descriptions gives text that reads back as exactly the planned statements, one per catalog column |
| Descriptions.AsWrittenAlwaysFails | HealthCare_Dashboard/pd_data_cleaner.py:109 | as written, the generator raises `ValueError` on its first line for every input |

## Left out

- File I/O is not modelled: the CSV load at lines 167-168, writing `table_description.sql` at lines 132-133 and writing `insert_statements.sql` at lines 150-151. The generators are modelled up to the text they would write.
- The `print` calls at lines 134 and 152 are left out; they only log.
- `pd.to_datetime` (lines 31-32) is the `parseDate` parameter. How pandas parses a date, and what it raises on a bad one, are not modelled.
- pandas dtype assignment is not modelled: each column carries its dtype tag as input, and the `datetime64[ns]` result of the date conversion is the `DateTime` tag.
- A column's cells are the `str()` rendering of its values, which is what `astype(str)` at line 36 measures; a missing value renders as `nan`. Number rendering is not modelled.
- The rows given to the insert serialiser are the `str()` of the values `iterrows` yields at line 146, taken as input. They can differ from the cells: `iterrows` upcasts the rows of an all-numeric frame (`34` becomes `34.0`), and a datetime is written as a `Timestamp` (`2024-01-01 00:00:00`).
- Whether a column holds only `str` values is the column's `allText` flag, given as input. That it agrees with the dtype (a column that is not `object` holds no `str`) is not enforced.
- Characters outside ASCII are treated as neither letters nor whitespace. Python's Unicode case mapping and Unicode whitespace are not modelled.
- Cleaning.Lookup, Cleaning.ConvertColumn, Cleaning.CleanTableMissing, Cleaning.CleanTableColumns, Cleaning.CleanDataSucceeds, Cleaning.CleanDataAsWritten and Cleaning.CleanDataAsWrittenAgrees: with a repeated label after renaming, the model finds and converts only the first matching column and can succeed. The source instead raises: `df[label]` is then a frame of all the matching columns, so a repeated date or name label fails in `pd.to_datetime` or in `.lower()` at lines 31-33, and any repeated label fails at line 40, where a frame has no `.dtype`. These members state the program's behaviour only for tables whose renamed labels are distinct; CleanTableColumns and CleanDataSucceeds require it.
- Cleaning.CleanDataSucceeds and Cleaning.CleanDataSuccess are about the model's `clean_data`, which reports an unrecognised dtype as an error. As written, lines 39-48 instead give such a column the previous column's token or raise `UnboundLocalError` (Schema.AsWrittenStaleToken, Schema.AsWrittenUnboundFirst); the two agree wherever the model succeeds (Cleaning.CleanDataAsWrittenAgrees).
- Schema.InferColumns keeps one pair per column. In the source a repeated label never reaches the dict at line 48, because line 40 raises on it first; that error is not modelled.
- Schema.DdlRoundTrip requires labels without spaces. The renames at line 28 guarantee this for every cleaned label (Cleaning.CleanDataSuccess).
- The keyword arguments of `sql_description_generator` are `Option<string>`: a value that is present but is not a string is not modelled.
- Descriptions.DescribeRoundTrip requires literal text, meaning every single quote is doubled. The fifteen entries of `ColumnCatalog` (lines 54-70) meet this (Descriptions.CatalogIsLiteral); the schema, table and the two optional descriptions are the caller's.
- `sql_insert_statement_gen` returns `None`, since it has no `return`. The model returns the joined text of line 149, which is what the function writes.
- Strings.Strip: its own contract states only that the result is trimmed and no longer than the input. That it is a slice of the input with whitespace cut from both ends is Strings.StripSlice, a separate lemma, so that the proofs about names and labels stay small.

## Findings

| source | as written | input that shows it | evidently intended | confidence | as-written member | corrected member |
|---|---|---|---|---|---|---|
| HealthCare_Dashboard/pd_data_cleaner.py:39-48 | `column_data_type` is set only for the four recognised dtypes and is otherwise left over from the previous column | a column of dtype `int64` followed by one of dtype `bool`: the `bool` column is declared `INTEGER` | an unrecognised dtype is reported, not given another column's type | not executed | Schema.AsWrittenStaleToken | Schema.InferColumns |
| HealthCare_Dashboard/pd_data_cleaner.py:146-147 | each cell is put between single quotes without escaping | the cell `O'Neil` gives `'O'Neil'`, which ends the literal early | single quotes doubled, as the catalog's descriptions at lines 55-56 are written | not executed | Inserts.VerbatimBreaksOnApostrophe | Inserts.InsertTextRoundTrip |
| HealthCare_Dashboard/pd_data_cleaner.py:109 | `a, b = ""` unpacks an empty string into two names | any call: unpacking `""` raises `ValueError` (not enough values) | both accumulators start as the empty string | not executed | Descriptions.AsWrittenAlwaysFails | Descriptions.DescribeRoundTrip |

=== FILE: Ascii.dfy ===
/**
 Character classes and case mappings of Python's `str` methods, restricted to ASCII.
 Every character outside ASCII is treated as neither a letter nor whitespace.
 */
module Ascii {

  /** Python's `str.isspace` on ASCII: tab, line feed, vertical tab, form feed,
      carriage return, the four separators 0x1C-0x1F, and space. */
  predicate IsSpace(c: char) {
    9 <= c as int <= 13 || 28 <= c as int <= 32
  }

  predicate IsUpper(c: char) {
    'A' <= c <= 'Z'
  }

  predicate IsLower(c: char) {
    'a' <= c <= 'z'
  }

  /** A cased character in Python's sense; over ASCII these are exactly the letters. */
  predicate IsLetter(c: char) {
    IsUpper(c) || IsLower(c)
  }

  predicate IsDigit(c: char) {
    '0' <= c <= '9'
  }

  function ToLower(c: char): (d: char)
    ensures !IsUpper(d)
    ensures IsLetter(d) <==> IsLetter(c)
    ensures !IsLetter(c) ==> d == c
    ensures IsLower(c) ==> d == c
  {
    if IsUpper(c) then (c as int + 32) as char else c
  }

  function ToUpper(c: char): (d: char)
    ensures !IsLower(d)
    ensures IsLetter(d) <==> IsLetter(c)
    ensures !IsLetter(c) ==> d == c
    ensures IsUpper(c) ==> d == c
  {
    if IsLower(c) then (c as int - 32) as char else c
  }
}

=== FILE: Cleaning.dfy ===
/**
 `clean_data` as a whole: relabel the columns, make the two date columns datetimes,
 normalise the patient names, then infer a type token per column and build the DDL.
 */
module Cleaning {
  import opened Wrappers
  import opened Frames
  import opened Labels
  import opened NameConvention
  import opened Schema

  /** What `clean_data` returns: the cleaned table and its `CREATE TABLE` statement. */
  datatype Cleaned = Cleaned(table: Table, ddl: string)

  const AdmissionLabel := "date_of_admission"
  const DischargeLabel := "discharge_date"
  const NameLabel := "patient_name"

  /** Both renames of lines 28-29 applied to every column label. */
  function Relabel(t: Table): (r: Table)
    ensures |r| == |t|
    ensures forall i :: 0 <= i < |t| ==> r[i] == t[i].(header := NormaliseLabel(t[i].header))
  {
    seq(|t|, i requires 0 <= i < |t| => t[i].(header := NormaliseLabel(t[i].header)))
  }

  /** Column `i` is the first one labelled `wanted`: the one `df[wanted]` selects. */
  predicate FirstWith(t: Table, wanted: string, i: nat) {
    && i < |t|
    && t[i].header == wanted
    && forall j :: 0 <= j < i ==> t[j].header != wanted
  }

  function LookupFrom(t: Table, wanted: string, from: nat): (r: Result<nat, CleanError>)
    requires from <= |t|
    requires forall j :: 0 <= j < from ==> t[j].header != wanted
    ensures r.Success? <==> HasColumn(t, wanted)
    ensures r.Success? ==> FirstWith(t, wanted, r.value)
    ensures r.Failure? ==> r.error == MissingColumn(wanted)
    decreases |t| - from
  {
    if from == |t| then Failure(MissingColumn(wanted))
    else if t[from].header == wanted then Success(from)
    else LookupFrom(t, wanted, from + 1)
  }

  /** `df[wanted]`: the first column with that label, or `KeyError`. */
  function Lookup(t: Table, wanted: string): (r: Result<nat, CleanError>)
    ensures r.Success? <==> HasColumn(t, wanted)
    ensures r.Success? ==> FirstWith(t, wanted, r.value)
    ensures r.Failure? ==> r.error == MissingColumn(wanted)
  {
    LookupFrom(t, wanted, 0)
  }

  /** `pd.to_datetime(column)`; the date parser is a parameter, since its rules are
      those of the library. */
  function AsDates(c: Column, parseDate: string -> string): (d: Column)
    ensures d.header == c.header && d.dtype == DateTime && |d.cells| == |c.cells|
    ensures forall k :: 0 <= k < |c.cells| ==> d.cells[k] == parseDate(c.cells[k])
  {
    Column(c.header, DateTime, seq(|c.cells|, k requires 0 <= k < |c.cells| => parseDate(c.cells[k])), false)
  }

  /** `column.apply(human_name_convention)` on a column of `str` values: every value of
      the result is a `str`. */
  function WithHumanNames(c: Column): (d: Column)
    ensures d.header == c.header && d.dtype == c.dtype && |d.cells| == |c.cells| && d.allText
    ensures forall k :: 0 <= k < |c.cells| ==> d.cells[k] == HumanName(c.cells[k])
  {
    c.(cells := seq(|c.cells|, k requires 0 <= k < |c.cells| => HumanName(c.cells[k])), allText := true)
  }

  /** Every cell of `c` is already a normalised name. */
  predicate NamesNormalised(c: Column) {
    forall k :: 0 <= k < |c.cells| ==> HumanName(c.cells[k]) == c.cells[k]
  }

  /** Normalising a column of names leaves names that normalise to themselves. */
  lemma WithHumanNamesNormalised(c: Column)
    ensures NamesNormalised(WithHumanNames(c))
  {
    var d := WithHumanNames(c);
    forall k | 0 <= k < |d.cells|
      ensures HumanName(d.cells[k]) == d.cells[k]
    {
      HumanNameIdempotent(c.cells[k]);
    }
  }

  /** The two conversions of lines 31-33. */
  datatype Conversion = ToDates | ToHumanNames

  function Convert(conv: Conversion, c: Column, parseDate: string -> string): (d: Column)
    ensures d.header == c.header && |d.cells| == |c.cells|
  {
    match conv
    case ToDates => AsDates(c, parseDate)
    case ToHumanNames => WithHumanNames(c)
  }

  /** Whether a conversion goes through on column `c`: dates always do (the parser is a
      parameter); `human_name_convention` calls `.lower()` on every value, which raises
      `AttributeError` on a value that is not a `str`. */
  predicate Convertible(conv: Conversion, c: Column) {
    conv.ToDates? || IsText(c)
  }

  /** `df[wanted] = conversion(df[wanted])`: converts the first column labelled `wanted`
      and leaves every other column as it is; raises `KeyError` when no column has the
      label, and `AttributeError` when the name conversion meets a value that is not a
      `str`. */
  function ConvertColumn(t: Table, wanted: string, conv: Conversion, parseDate: string -> string)
    : (r: Result<Table, CleanError>)
    ensures !HasColumn(t, wanted) ==> r == Failure(MissingColumn(wanted))
    ensures forall i :: 0 <= i < |t| && FirstWith(t, wanted, i) ==>
      if Convertible(conv, t[i]) then r.Success? else r == Failure(NameNotText(wanted))
    ensures conv.ToDates? ==> (r.Success? <==> HasColumn(t, wanted))
    ensures r.Success? ==> HasColumn(t, wanted) && |r.value| == |t|
    ensures r.Success? ==> forall i :: 0 <= i < |t| ==>
      r.value[i] == if FirstWith(t, wanted, i) then Convert(conv, t[i], parseDate) else t[i]
  {
    var i :- Lookup(t, wanted);
    assert forall j :: 0 <= j < |t| && FirstWith(t, wanted, j) ==> j == i;
    if Convertible(conv, t[i]) then Success(t[i := Convert(conv, t[i], parseDate)])
    else Failure(NameNotText(wanted))
  }

  /** Lines 28-33: the relabelled table with its date and name columns converted. */
  function CleanTable(raw: Table, parseDate: string -> string): Result<Table, CleanError>
  {
    match ConvertColumn(Relabel(raw), AdmissionLabel, ToDates, parseDate)
    case Failure(e) => Failure(e)
    case Success(t1) =>
      match ConvertColumn(t1, DischargeLabel, ToDates, parseDate)
      case Failure(e) => Failure(e)
      case Success(t2) => ConvertColumn(t2, NameLabel, ToHumanNames, parseDate)
  }

  /** `clean_data` (lines 22-52), with an unrecognised dtype reported as an error. */
  function CleanData(raw: Table, parseDate: string -> string): Result<Cleaned, CleanError>
  {
    match CleanTable(raw, parseDate)
    case Failure(e) => Failure(e)
    case Success(t) =>
      match InferColumns(t)
      case Failure(e) => Failure(e)
      case Success(info) => Success(Cleaned(t, Ddl(info)))
  }

  /** `clean_data` as written: the loop of lines 39-48 gives a column of unrecognised
      dtype the token of the column before it, or raises `UnboundLocalError` when no
      token has been set yet. */
  function CleanDataAsWritten(raw: Table, parseDate: string -> string): Result<Cleaned, CleanError>
  {
    match CleanTable(raw, parseDate)
    case Failure(e) => Failure(e)
    case Success(t) =>
      match InferColumnsAsWritten(t)
      case Failure(e) => Failure(e)
      case Success(info) => Success(Cleaned(t, Ddl(info)))
  }

  // ---------------------------------------------------------------------------
  // Properties

  predicate Distinct(xs: seq<string>) {
    forall i, j :: 0 <= i < j < |xs| ==> xs[i] != xs[j]
  }

  /** The first raw column relabelled `patient_name`, if there is one, holds only `str`
      values. */
  predicate NameIsText(raw: Table) {
    forall i :: 0 <= i < |raw| && FirstWith(Relabel(raw), NameLabel, i) ==> IsText(raw[i])
  }

  /** Whether some raw column is relabelled `wanted`. */
  predicate HasLabel(raw: Table, wanted: string) {
    exists i :: 0 <= i < |raw| && NormaliseLabel(raw[i].header) == wanted
  }

  /** The column `clean_data` makes of raw column `c` when labels are distinct. */
  function CleanedColumn(c: Column, parseDate: string -> string): Column
  {
    var h := NormaliseLabel(c.header);
    if h == AdmissionLabel || h == DischargeLabel then AsDates(c.(header := h), parseDate)
    else if h == NameLabel then WithHumanNames(c.(header := h))
    else c.(header := h)
  }

  lemma RelabelHeaders(raw: Table)
    ensures Headers(Relabel(raw)) == NormaliseLabels(Headers(raw))
  {
  }

  /** A table whose labels are the normalised raw labels, column by column. */
  lemma HeadersNormalised(t: Table, raw: Table)
    requires |t| == |raw|
    requires forall i :: 0 <= i < |raw| ==> t[i].header == NormaliseLabel(raw[i].header)
    ensures Headers(t) == NormaliseLabels(Headers(raw))
  {
  }

  lemma HasLabelRelabel(raw: Table, wanted: string)
    ensures HasColumn(Relabel(raw), wanted) <==> HasLabel(raw, wanted)
  {
    var t0 := Relabel(raw);
    if HasLabel(raw, wanted) {
      var i :| 0 <= i < |raw| && NormaliseLabel(raw[i].header) == wanted;
      assert t0[i].header == wanted;
    }
  }

  /** Converting a column keeps every label where it is. */
  lemma ConvertKeepsHeaders(t: Table, wanted: string, conv: Conversion, parseDate: string -> string, other: string)
    requires ConvertColumn(t, wanted, conv, parseDate).Success?
    ensures var u := ConvertColumn(t, wanted, conv, parseDate).value;
      && (forall i :: 0 <= i < |t| ==> u[i].header == t[i].header)
      && (HasColumn(u, other) <==> HasColumn(t, other))
  {
    var u := ConvertColumn(t, wanted, conv, parseDate).value;
    assert forall i :: 0 <= i < |t| ==> u[i].header == t[i].header;
    if HasColumn(t, other) {
      var i :| 0 <= i < |t| && t[i].header == other;
      assert u[i].header == other;
    }
    if HasColumn(u, other) {
      var i :| 0 <= i < |u| && u[i].header == other;
      assert t[i].header == other;
    }
  }

  /** The two date conversions leave the name column alone: the column the name
      conversion meets is the raw one, relabelled. */
  lemma NameColumnUnconverted(raw: Table, parseDate: string -> string, t1: Table, t2: Table, i: nat)
    requires ConvertColumn(Relabel(raw), AdmissionLabel, ToDates, parseDate) == Success(t1)
    requires ConvertColumn(t1, DischargeLabel, ToDates, parseDate) == Success(t2)
    requires i < |raw|
    ensures |t2| == |raw|
    ensures FirstWith(t2, NameLabel, i) <==> FirstWith(Relabel(raw), NameLabel, i)
    ensures FirstWith(t2, NameLabel, i) ==> IsText(t2[i]) == IsText(raw[i])
    ensures FirstWith(t2, NameLabel, i) ==> t2[i] == Relabel(raw)[i]
  {
    var t0 := Relabel(raw);
    ConvertKeepsHeaders(t0, AdmissionLabel, ToDates, parseDate, NameLabel);
    ConvertKeepsHeaders(t1, DischargeLabel, ToDates, parseDate, NameLabel);
    assert forall j :: 0 <= j < |raw| ==> t2[j].header == t0[j].header;
    if FirstWith(t2, NameLabel, i) {
      assert t1[i] == t0[i];
      assert t2[i] == t1[i];
    }
  }

  /** The three columns the cleaner needs are looked up in order, and the first one
      missing is the `KeyError`; with all three present, the table is cleaned exactly
      when the name column holds only `str` values, and otherwise the name conversion
      raises. */
  lemma CleanTableMissing(raw: Table, parseDate: string -> string)
    ensures !HasLabel(raw, AdmissionLabel) ==>
      CleanTable(raw, parseDate) == Failure(MissingColumn(AdmissionLabel))
    ensures HasLabel(raw, AdmissionLabel) && !HasLabel(raw, DischargeLabel) ==>
      CleanTable(raw, parseDate) == Failure(MissingColumn(DischargeLabel))
    ensures HasLabel(raw, AdmissionLabel) && HasLabel(raw, DischargeLabel) && !HasLabel(raw, NameLabel) ==>
      CleanTable(raw, parseDate) == Failure(MissingColumn(NameLabel))
    ensures HasLabel(raw, AdmissionLabel) && HasLabel(raw, DischargeLabel) && HasLabel(raw, NameLabel)
            && !NameIsText(raw) ==>
      CleanTable(raw, parseDate) == Failure(NameNotText(NameLabel))
    ensures CleanTable(raw, parseDate).Success? <==>
      HasLabel(raw, AdmissionLabel) && HasLabel(raw, DischargeLabel) && HasLabel(raw, NameLabel)
      && NameIsText(raw)
  {
    var t0 := Relabel(raw);
    HasLabelRelabel(raw, AdmissionLabel);
    HasLabelRelabel(raw, DischargeLabel);
    HasLabelRelabel(raw, NameLabel);
    var r1 := ConvertColumn(t0, AdmissionLabel, ToDates, parseDate);
    if r1.Success? {
      var t1 := r1.value;
      ConvertKeepsHeaders(t0, AdmissionLabel, ToDates, parseDate, DischargeLabel);
      ConvertKeepsHeaders(t0, AdmissionLabel, ToDates, parseDate, NameLabel);
      var r2 := ConvertColumn(t1, DischargeLabel, ToDates, parseDate);
      if r2.Success? {
        var t2 := r2.value;
        ConvertKeepsHeaders(t1, DischargeLabel, ToDates, parseDate, NameLabel);
        assert CleanTable(raw, parseDate) == ConvertColumn(t2, NameLabel, ToHumanNames, parseDate);
        if HasColumn(t2, NameLabel) {
          var i := Lookup(t2, NameLabel).value;
          NameColumnUnconverted(raw, parseDate, t1, t2, i);
          forall j | 0 <= j < |raw| && FirstWith(t0, NameLabel, j)
            ensures j == i
          {
            NameColumnUnconverted(raw, parseDate, t1, t2, j);
          }
          assert NameIsText(raw) <==> IsText(raw[i]);
        }
      }
    }
  }
  /** With distinct labels, the column labelled `wanted` is the first one so labelled. */
  lemma FirstWithDistinct(t: Table, wanted: string, i: nat)
    requires Distinct(Headers(t)) && i < |t|
    ensures FirstWith(t, wanted, i) <==> t[i].header == wanted
  {
    if t[i].header == wanted {
      forall j | 0 <= j < i
        ensures t[j].header != wanted
      {
        assert Headers(t)[j] != Headers(t)[i];
      }
    }
  }

  /** With distinct labels, converting a column converts the one column so labelled. */
  lemma ConvertDistinct(t: Table, wanted: string, conv: Conversion, parseDate: string -> string)
    requires Distinct(Headers(t)) && HasColumn(t, wanted)
    ensures var r := ConvertColumn(t, wanted, conv, parseDate);
      r.Success? ==>
        && |r.value| == |t|
        && Headers(r.value) == Headers(t)
        && forall i :: 0 <= i < |t| ==> r.value[i] == if t[i].header == wanted then Convert(conv, t[i], parseDate) else t[i]
  {
    var r := ConvertColumn(t, wanted, conv, parseDate);
    if r.Success? {
      var u := r.value;
      forall i | 0 <= i < |t|
        ensures u[i] == if t[i].header == wanted then Convert(conv, t[i], parseDate) else t[i]
      {
        FirstWithDistinct(t, wanted, i);
      }
      assert Headers(u) == Headers(t);
    }
  }
  lemma CleanedColumnCases(c: Column, parseDate: string -> string, h: string)
    requires h == NormaliseLabel(c.header)
    ensures h == AdmissionLabel ==> CleanedColumn(c, parseDate) == AsDates(c.(header := h), parseDate)
    ensures h == DischargeLabel ==> CleanedColumn(c, parseDate) == AsDates(c.(header := h), parseDate)
    ensures h == NameLabel ==> CleanedColumn(c, parseDate) == WithHumanNames(c.(header := h))
    ensures h != AdmissionLabel && h != DischargeLabel && h != NameLabel ==> CleanedColumn(c, parseDate) == c.(header := h)
  {
  }

  /** The three conversions, followed on one column. */
  lemma CleanedColumnSteps(c: Column, parseDate: string -> string, c0: Column, c1: Column, c2: Column, c3: Column)
    requires c0 == c.(header := NormaliseLabel(c.header))
    requires c1 == if c0.header == AdmissionLabel then Convert(ToDates, c0, parseDate) else c0
    requires c2 == if c1.header == DischargeLabel then Convert(ToDates, c1, parseDate) else c1
    requires c3 == if c2.header == NameLabel then Convert(ToHumanNames, c2, parseDate) else c2
    ensures c3 == CleanedColumn(c, parseDate)
  {
    CleanedColumnCases(c, parseDate, c0.header);
  }

  /** With distinct labels and the three columns present, cleaning succeeds exactly
      when the name column holds only `str` values, and then the cleaned table has one
      column per raw column, in order: the date columns become datetimes of the parsed
      cells, the name column holds the normalised names, and every other column keeps
      its dtype and cells. */
  lemma CleanTableColumns(raw: Table, parseDate: string -> string)
    requires Distinct(NormaliseLabels(Headers(raw)))
    requires HasLabel(raw, AdmissionLabel) && HasLabel(raw, DischargeLabel) && HasLabel(raw, NameLabel)
    ensures CleanTable(raw, parseDate).Success? <==> NameIsText(raw)
    ensures CleanTable(raw, parseDate).Success? ==>
      var t := CleanTable(raw, parseDate).value;
      && |t| == |raw|
      && forall i :: 0 <= i < |raw| ==> t[i] == CleanedColumn(raw[i], parseDate)
  {
    CleanTableMissing(raw, parseDate);
    if CleanTable(raw, parseDate).Success? {
      var t0 := Relabel(raw);
      RelabelHeaders(raw);
      HasLabelRelabel(raw, AdmissionLabel);
      HasLabelRelabel(raw, DischargeLabel);
      HasLabelRelabel(raw, NameLabel);
      ConvertDistinct(t0, AdmissionLabel, ToDates, parseDate);
      var t1 := ConvertColumn(t0, AdmissionLabel, ToDates, parseDate).value;
      ConvertKeepsHeaders(t0, AdmissionLabel, ToDates, parseDate, DischargeLabel);
      ConvertKeepsHeaders(t0, AdmissionLabel, ToDates, parseDate, NameLabel);
      ConvertDistinct(t1, DischargeLabel, ToDates, parseDate);
      var t2 := ConvertColumn(t1, DischargeLabel, ToDates, parseDate).value;
      ConvertKeepsHeaders(t1, DischargeLabel, ToDates, parseDate, NameLabel);
      ConvertDistinct(t2, NameLabel, ToHumanNames, parseDate);
      assert CleanTable(raw, parseDate) == ConvertColumn(t2, NameLabel, ToHumanNames, parseDate);
      var t3 := ConvertColumn(t2, NameLabel, ToHumanNames, parseDate).value;
      forall i | 0 <= i < |raw|
        ensures t3[i] == CleanedColumn(raw[i], parseDate)
      {
        CleanedColumnSteps(raw[i], parseDate, t0[i], t1[i], t2[i], t3[i]);
      }
    }
  }
  /** A converted column keeps its label and its number of rows. */
  lemma ConvertKeepsShape(t: Table, wanted: string, conv: Conversion, parseDate: string -> string)
    requires ConvertColumn(t, wanted, conv, parseDate).Success?
    ensures var u := ConvertColumn(t, wanted, conv, parseDate).value;
      forall i :: 0 <= i < |t| ==> u[i].header == t[i].header && |u[i].cells| == |t[i].cells|
  {
  }

  /** Converting the name column leaves normalised names in it. */
  lemma ConvertNamesNormalised(t: Table, parseDate: string -> string)
    requires ConvertColumn(t, NameLabel, ToHumanNames, parseDate).Success?
    ensures var u := ConvertColumn(t, NameLabel, ToHumanNames, parseDate).value;
      forall i :: 0 <= i < |u| && FirstWith(u, NameLabel, i) ==> NamesNormalised(u[i])
  {
    var u := ConvertColumn(t, NameLabel, ToHumanNames, parseDate).value;
    forall i | 0 <= i < |u| && FirstWith(u, NameLabel, i)
      ensures NamesNormalised(u[i])
    {
      assert forall j :: 0 <= j < |t| ==> u[j].header == t[j].header;
      assert FirstWith(t, NameLabel, i);
      WithHumanNamesNormalised(t[i]);
    }
  }

  /** A cleaned table has the raw table's columns in order, each with its normalised
      label and its row count, and the patient-name column holds normalised names. */
  lemma CleanTableShape(raw: Table, parseDate: string -> string)
    requires CleanTable(raw, parseDate).Success?
    ensures var t := CleanTable(raw, parseDate).value;
      && |t| == |raw|
      && (forall i :: 0 <= i < |raw| ==> t[i].header == NormaliseLabel(raw[i].header))
      && (forall i :: 0 <= i < |raw| ==> |t[i].cells| == |raw[i].cells|)
      && (forall i :: 0 <= i < |t| && FirstWith(t, NameLabel, i) ==> NamesNormalised(t[i]))
  {
    var t0 := Relabel(raw);
    var t1 := ConvertColumn(t0, AdmissionLabel, ToDates, parseDate).value;
    ConvertKeepsShape(t0, AdmissionLabel, ToDates, parseDate);
    var t2 := ConvertColumn(t1, DischargeLabel, ToDates, parseDate).value;
    ConvertKeepsShape(t1, DischargeLabel, ToDates, parseDate);
    var t3 := ConvertColumn(t2, NameLabel, ToHumanNames, parseDate).value;
    ConvertKeepsShape(t2, NameLabel, ToHumanNames, parseDate);
    assert CleanTable(raw, parseDate) == Success(t3);
    forall i | 0 <= i < |raw|
      ensures t3[i].header == NormaliseLabel(raw[i].header) && |t3[i].cells| == |raw[i].cells|
    {
      assert t0[i].header == NormaliseLabel(raw[i].header) && t0[i].cells == raw[i].cells;
    }
    ConvertNamesNormalised(t2, parseDate);
  }

  /** Normalised labels carry no space, so the DDL can carry them. */
  lemma NormalisedLabelsHaveNoSpace(t: Table, raw: Table)
    requires |t| == |raw|
    requires forall i :: 0 <= i < |raw| ==> t[i].header == NormaliseLabel(raw[i].header)
    ensures forall i :: 0 <= i < |t| ==> ' ' !in t[i].header
  {
    forall i | 0 <= i < |t|
      ensures ' ' !in t[i].header
    {
      var h := NormaliseLabel(raw[i].header);
      assert IsCleanLabel(h);
      assert forall k :: 0 <= k < |h| ==> h[k] != ' ';
    }
  }

  /** A successful run keeps the number and order of columns, gives them their
      normalised labels, keeps every column's row count, leaves the names in the
      patient-name column normalised, and returns the DDL that reads back as each label
      with its token. */
  lemma CleanDataSuccess(raw: Table, parseDate: string -> string)
    requires CleanData(raw, parseDate).Success?
    ensures var r := CleanData(raw, parseDate).value;
      && |r.table| == |raw|
      && Headers(r.table) == NormaliseLabels(Headers(raw))
      && (forall i :: 0 <= i < |raw| ==> |r.table[i].cells| == |raw[i].cells|)
      && (forall i :: 0 <= i < |r.table| && FirstWith(r.table, NameLabel, i) ==> NamesNormalised(r.table[i]))
      && ParseDdl(r.ddl).Some?
      && |ParseDdl(r.ddl).value| == |raw|
      && (forall i :: 0 <= i < |raw| ==>
            ParseDdl(r.ddl).value[i] == (r.table[i].header, TypeToken(r.table[i]).value))
  {
    var t := CleanTable(raw, parseDate).value;
    CleanTableShape(raw, parseDate);
    var info := InferColumns(t).value;
    assert CleanData(raw, parseDate).value == Cleaned(t, Ddl(info));
    HeadersNormalised(t, raw);
    NormalisedLabelsHaveNoSpace(t, raw);
    InferredInfoDescribable(t);
    DdlRoundTrip(info);
  }

  /** Only the date columns may keep a dtype outside the four recognised. */
  predicate OthersOnlyDates(raw: Table) {
    forall i :: 0 <= i < |raw| && raw[i].dtype.Other? ==>
      NormaliseLabel(raw[i].header) == AdmissionLabel || NormaliseLabel(raw[i].header) == DischargeLabel
  }

  /** The cleaned columns have no unrecognised dtype exactly when only date columns had one. */
  lemma NoOthersAfterCleaning(t: Table, raw: Table)
    requires |t| == |raw|
    requires forall i :: 0 <= i < |raw| ==>
      (t[i].dtype.Other? <==> raw[i].dtype.Other? && NormaliseLabel(raw[i].header) != AdmissionLabel
                                                 && NormaliseLabel(raw[i].header) != DischargeLabel)
    ensures (forall i :: 0 <= i < |t| ==> !t[i].dtype.Other?) <==> OthersOnlyDates(raw)
  {
  }

  /** With distinct labels and all three columns present, cleaning succeeds exactly when
      the name column holds only `str` values and every column other than the two date
      columns has one of the four recognised dtypes. */
  lemma CleanDataSucceeds(raw: Table, parseDate: string -> string)
    requires Distinct(NormaliseLabels(Headers(raw)))
    requires HasLabel(raw, AdmissionLabel) && HasLabel(raw, DischargeLabel) && HasLabel(raw, NameLabel)
    ensures CleanData(raw, parseDate).Success? <==> NameIsText(raw) && OthersOnlyDates(raw)
  {
    CleanTableColumns(raw, parseDate);
    if CleanTable(raw, parseDate).Success? {
      var t := CleanTable(raw, parseDate).value;
      assert CleanData(raw, parseDate).Success? <==> InferColumns(t).Success?;
      forall i | 0 <= i < |raw|
        ensures t[i].dtype.Other? <==> raw[i].dtype.Other? && NormaliseLabel(raw[i].header) != AdmissionLabel
                                                         && NormaliseLabel(raw[i].header) != DischargeLabel
      {
        CleanedColumnCases(raw[i], parseDate, NormaliseLabel(raw[i].header));
      }
      NoOthersAfterCleaning(t, raw);
    }
  }

  /** Wherever the model's `clean_data` succeeds, or fails before the type inference,
      it returns what the program as written returns. */
  lemma CleanDataAsWrittenAgrees(raw: Table, parseDate: string -> string)
    ensures CleanData(raw, parseDate).Success? ==> CleanDataAsWritten(raw, parseDate) == CleanData(raw, parseDate)
    ensures CleanTable(raw, parseDate).Failure? ==> CleanDataAsWritten(raw, parseDate) == CleanData(raw, parseDate)
  {
    if CleanTable(raw, parseDate).Success? {
      var t := CleanTable(raw, parseDate).value;
      if InferColumns(t).Success? {
        AsWrittenAgreesWhenRecognised(t, None);
      }
    }
  }

  /** With distinct labels and the three columns present, when only the date columns
      have an unrecognised dtype the program as written and the model agree. */
  lemma CleanDataAsWrittenWhenOthersOnlyDates(raw: Table, parseDate: string -> string)
    requires Distinct(NormaliseLabels(Headers(raw)))
    requires HasLabel(raw, AdmissionLabel) && HasLabel(raw, DischargeLabel) && HasLabel(raw, NameLabel)
    requires OthersOnlyDates(raw)
    ensures CleanDataAsWritten(raw, parseDate) == CleanData(raw, parseDate)
  {
    CleanDataSucceeds(raw, parseDate);
    CleanTableColumns(raw, parseDate);
    CleanDataAsWrittenAgrees(raw, parseDate);
  }
}

=== FILE: Descriptions.dfy ===
/**
 The description generator `sql_description_generator`: an optional table-description
 statement, an optional source-description statement, then one column-description
 statement per catalog entry, in catalog order, each made by filling a fixed template.
 A reader takes the generated text apart again into the statements it was made from.
 */
module Descriptions {
  import opened Wrappers
  import Inserts
  import Strings

  // ---------------------------------------------------------------------------
  // Templates

  /** A positional field `{index}` of a `str.format` template, with the literal text
      that follows it up to the next field. */
  datatype Field = Field(index: nat, after: string)

  /** A template: the literal text before its first field, then its fields in order. */
  datatype Template = Template(head: string, fields: seq<Field>)

  /** Every field of `t` names one of `arity` arguments. */
  predicate Fits(t: Template, arity: nat) {
    forall k :: 0 <= k < |t.fields| ==> t.fields[k].index < arity
  }

  function FormatFields(fs: seq<Field>, args: seq<string>): string
    requires forall k :: 0 <= k < |fs| ==> fs[k].index < |args|
  {
    if fs == [] then "" else args[fs[0].index] + fs[0].after + FormatFields(fs[1..], args)
  }

  /** `t.format(*args)` */
  function Format(t: Template, args: seq<string>): string
    requires Fits(t, |args|)
  {
    t.head + FormatFields(t.fields, args)
  }

  /** The arguments the fields `fs` use, in order. */
  function FieldValues(fs: seq<Field>, args: seq<string>): (vs: seq<string>)
    requires forall k :: 0 <= k < |fs| ==> fs[k].index < |args|
    ensures |vs| == |fs|
  {
    seq(|fs|, k requires 0 <= k < |fs| => args[fs[k].index])
  }

  // The three templates of lines 71-99, written line by line.

  /** The first two lines the table and source templates share. */
  const ExecHeader: string := "\n" + "EXEC sys.sp_addextendedproperty \n"

  /** The text before the first field of each template. */
  const TableHead: string := ExecHeader + "    @name=N'TableDescription', \n" + "    @value=N'"
  const SourceHead: string := ExecHeader + "    @name=N'SourceDescription', \n" + "    @value=N'"
  const ColumnHead: string :=
    "\n" + "EXECUTE sp_addextendedproperty\n" + "    @name = 'MS_Description', \n" + "    @value = '"

  /** `sql_table_description_template`: fields description, schema, table. */
  const TableTemplate: Template := Template(
    TableHead,
    [Field(0, "',\n" + "    @level0type=N'SCHEMA',\n" + "    @level0name=N'"),
     Field(1, "', \n" + "    @level1type=N'TABLE',\n" + "    @level1name=N'"),
     Field(2, "';\n")])

  /** `sql_source_description_template`: fields source, schema, table. */
  const SourceTemplate: Template := Template(
    SourceHead,
    [Field(0, "',\n" + "    @level0type=N'SCHEMA',\n" + "    @level0name=N'"),
     Field(1, "',\n" + "    @level1type=N'TABLE',\n" + "    @level1name=N'"),
     Field(2, "';\n")])

  /** `sql_column_description_template`: fields description, schema, table, column. */
  const ColumnTemplate: Template := Template(
    ColumnHead,
    [Field(0, "', \n" + "    @level0type = 'SCHEMA', \n" + "    @level0name = N'"),
     Field(1, "', \n" + "    @level1type = N'TABLE',\n" + "    @level1name = N'"),
     Field(2, "',\n" + "    @level2type = N'COLUMN', \n" + "    @level2name = N'"),
     Field(3, "';\n")])

  // ---------------------------------------------------------------------------
  // Statements and the generator

  /** One extended-property statement the generator emits. */
  datatype Statement =
    | TableDescription(description: string, schema: string, table: string)
    | SourceDescription(source: string, schema: string, table: string)
    | ColumnDescription(description: string, schema: string, table: string, column: string)

  function TemplateOf(st: Statement): Template {
    match st
    case TableDescription(_, _, _) => TableTemplate
    case SourceDescription(_, _, _) => SourceTemplate
    case ColumnDescription(_, _, _, _) => ColumnTemplate
  }

  /** The template arguments, in the order the source passes them to `format`. */
  function Args(st: Statement): seq<string> {
    match st
    case TableDescription(d, s, t) => [d, s, t]
    case SourceDescription(d, s, t) => [d, s, t]
    case ColumnDescription(d, s, t, c) => [d, s, t, c]
  }

  function Render(st: Statement): string {
    Format(TemplateOf(st), Args(st))
  }

  function Concat(ss: seq<string>): string {
    if ss == [] then "" else ss[0] + Concat(ss[1..])
  }

  function Rendered(sts: seq<Statement>): (ss: seq<string>)
    ensures |ss| == |sts|
    ensures forall k :: 0 <= k < |sts| ==> ss[k] == Render(sts[k])
  {
    seq(|sts|, k requires 0 <= k < |sts| => Render(sts[k]))
  }

  /** The statements rendered one after another. */
  function RenderAll(sts: seq<Statement>): string {
    Concat(Rendered(sts))
  }

  /** The `column_descriptions` dictionary, in insertion order: (column, description). */
  type Catalog = seq<(string, string)>

  /** One column statement per catalog entry, in catalog order. */
  function ColumnStatements(catalog: Catalog, schema: string, table: string): (sts: seq<Statement>)
    ensures |sts| == |catalog|
    ensures forall k :: 0 <= k < |catalog| ==>
      sts[k] == ColumnDescription(catalog[k].1, schema, table, catalog[k].0)
  {
    seq(|catalog|, k requires 0 <= k < |catalog| => ColumnDescription(catalog[k].1, schema, table, catalog[k].0))
  }

  /** What the generator describes: the table statement when a table description is
      given, the source statement when a source is given, then the columns. */
  function Plan(catalog: Catalog, schema: string, table: string,
                description: Option<string>, source: Option<string>): (sts: seq<Statement>)
    ensures |sts| == |catalog| + (if description.Some? then 1 else 0) + (if source.Some? then 1 else 0)
  {
    (if description.Some? then [TableDescription(description.value, schema, table)] else [])
    + (if source.Some? then [SourceDescription(source.value, schema, table)] else [])
    + ColumnStatements(catalog, schema, table)
  }

  /** The body of the generator once its two accumulators hold `tableInit` and `sourceInit`. */
  function DescribeFrom(tableInit: string, sourceInit: string, catalog: Catalog, schema: string,
                        table: string, description: Option<string>, source: Option<string>): string
  {
    var tablePart := if description.Some? then Render(TableDescription(description.value, schema, table)) else tableInit;
    var sourcePart := if source.Some? then Render(SourceDescription(source.value, schema, table)) else sourceInit;
    tablePart + sourcePart + RenderAll(ColumnStatements(catalog, schema, table))
  }

  /** The generator with both accumulators starting empty (the evidently intended line 109). */
  function Describe(catalog: Catalog, schema: string, table: string,
                    description: Option<string>, source: Option<string>): string
  {
    DescribeFrom("", "", catalog, schema, table, description, source)
  }

  /** Why `a, b = v` fails on a string `v`. */
  datatype UnpackError = NotEnoughValues(got: nat) | TooManyValues

  /** Python's `a, b = v` for a string `v`: it succeeds only when `v` has exactly two characters. */
  function Unpack2(v: string): (r: Result<(string, string), UnpackError>)
    ensures r.Success? <==> |v| == 2
  {
    if |v| == 2 then Success(([v[0]], [v[1]]))
    else if |v| < 2 then Failure(NotEnoughValues(|v|))
    else Failure(TooManyValues)
  }

  /** The generator as written: line 109 unpacks `""` into the two accumulators first. */
  function DescribeAsWritten(catalog: Catalog, schema: string, table: string,
                             description: Option<string>, source: Option<string>): Result<string, UnpackError>
  {
    match Unpack2("")
    case Failure(e) => Failure(e)
    case Success((a, b)) => Success(DescribeFrom(a, b, catalog, schema, table, description, source))
  }

  /** `column_descriptions` (lines 54-70). */
  const ColumnCatalog: Catalog := [
    ("patient_name", "The patient''s full name"),
    ("patient_age", "The patient''s age"),
    ("gender", "The patient''s gender."),
    ("blood_type", "The patient''s blood type."),
    ("medical_condition", "The patient''s medical condition."),
    ("date_of_admission", "The date the patient was admitted to the hospital."),
    ("doctor", "The name of the doctor in charge of the patient."),
    ("hospital", "The name of the hospital."),
    ("insurance_provider", "The name of the insurance provider."),
    ("billing_amount", "The total billing amount."),
    ("room_number", "The room number assigned to the patient."),
    ("admission_type", "The type of admission (e.g., emergency, elective)."),
    ("discharge_date", "The date the patient was discharged from the hospital."),
    ("medication", "The medication prescribed to the patient."),
    ("test_results", "The results of any tests conducted on the patient.")]

  // ---------------------------------------------------------------------------
  // Reading generated text back

  /** Matches fields `fs` against the front of `s`: each field is read as literal text up
      to its closing quote, which opens the text that follows the field. */
  function MatchFields(fs: seq<Field>, s: string): (r: Option<(seq<string>, string)>)
    ensures r.Some? ==> |r.value.1| <= |s|
  {
    if fs == [] then Some(([], s))
    else
      var after := fs[0].after;
      if after != [] && after[0] == '\'' then
        match Inserts.ReadRaw(s)
        case None => None
        case Some((v, rest)) =>
          if after[1..] <= rest then
            match MatchFields(fs[1..], rest[|after| - 1..])
            case None => None
            case Some((vs, tail)) => Some(([v] + vs, tail))
          else None
      else None
  }

  /** Matches template `t` against the front of `s`; gives the field texts in order and
      what follows the template. */
  function Match(t: Template, s: string): (r: Option<(seq<string>, string)>)
    ensures r.Some? ==> |r.value.1| <= |s| - |t.head|
  {
    if t.head <= s then MatchFields(t.fields, s[|t.head|..]) else None
  }

  /** Reads one statement off the front of `s`. */
  function ReadStatement(s: string): (r: Option<(Statement, string)>)
    ensures r.Some? ==> |r.value.1| < |s|
  {
    match Match(TableTemplate, s)
    case Some((vs, rest)) =>
      if |vs| == 3 then Some((TableDescription(vs[0], vs[1], vs[2]), rest)) else None
    case None =>
      match Match(SourceTemplate, s)
      case Some((vs, rest)) =>
        if |vs| == 3 then Some((SourceDescription(vs[0], vs[1], vs[2]), rest)) else None
      case None =>
        match Match(ColumnTemplate, s)
        case Some((vs, rest)) =>
          if |vs| == 4 then Some((ColumnDescription(vs[0], vs[1], vs[2], vs[3]), rest)) else None
        case None => None
  }

  function ReadStatements(s: string): Option<seq<Statement>>
    decreases |s|
  {
    if s == [] then Some([])
    else
      match ReadStatement(s)
      case None => None
      case Some((st, rest)) =>
        match ReadStatements(rest)
        case None => None
        case Some(more) => Some([st] + more)
  }

  // ---------------------------------------------------------------------------
  // Properties

  /** The text after every field closes the field's quote and goes on with a character
      other than a quote. */
  predicate QuotedFields(fs: seq<Field>) {
    forall k :: 0 <= k < |fs| ==>
      |fs[k].after| >= 2 && fs[k].after[0] == '\'' && fs[k].after[1] != '\''
  }

  /** One step of `MatchFields`: a field read up to its closing quote, then the rest. */
  lemma MatchFieldsCons(fs: seq<Field>, s: string, v: string, r1: string, vs: seq<string>, tail: string)
    requires fs != [] && fs[0].after != [] && fs[0].after[0] == '\''
    requires Inserts.ReadRaw(s) == Some((v, r1)) && fs[0].after[1..] <= r1
    requires MatchFields(fs[1..], r1[|fs[0].after| - 1..]) == Some((vs, tail))
    ensures MatchFields(fs, s) == Some(([v] + vs, tail))
  {
  }

  /** `FormatFields` on a non-empty field list, with the field's closing quote split off. */
  lemma FormatFieldsCons(fs: seq<Field>, args: seq<string>, rest: string)
    requires fs != [] && forall k :: 0 <= k < |fs| ==> fs[k].index < |args|
    requires fs[0].after != [] && fs[0].after[0] == '\''
    ensures FormatFields(fs, args) + rest
      == args[fs[0].index] + "'" + (fs[0].after[1..] + (FormatFields(fs[1..], args) + rest))
  {
    var v, after, more := args[fs[0].index], fs[0].after, FormatFields(fs[1..], args);
    assert FormatFields(fs, args) == v + after + more;
    Strings.AppendAssoc(v + after, more, rest);
    assert after == "'" + after[1..];
    Strings.AppendAssoc(v, "'", after[1..]);
    Strings.AppendAssoc(v + "'", after[1..], more + rest);
  }

  lemma FieldValuesCons(fs: seq<Field>, args: seq<string>)
    requires fs != [] && forall k :: 0 <= k < |fs| ==> fs[k].index < |args|
    ensures FieldValues(fs, args) == [args[fs[0].index]] + FieldValues(fs[1..], args)
  {
  }

  lemma QuotedFieldsTail(fs: seq<Field>)
    requires fs != [] && QuotedFields(fs)
    ensures QuotedFields(fs[1..])
    ensures |fs[0].after| >= 2 && fs[0].after[0] == '\'' && fs[0].after[1] != '\''
  {
    assert forall k :: 0 <= k < |fs| - 1 ==> fs[1..][k] == fs[k + 1];
  }

  lemma DropFront(a: string, b: string)
    ensures a <= a + b && (a + b)[|a|..] == b
  {
  }

  lemma {:induction false} MatchFormatFields(fs: seq<Field>, args: seq<string>, rest: string)
    requires forall k :: 0 <= k < |fs| ==> fs[k].index < |args|
    requires QuotedFields(fs)
    requires forall i :: 0 <= i < |args| ==> Inserts.IsLiteralText(args[i])
    ensures MatchFields(fs, FormatFields(fs, args) + rest) == Some((FieldValues(fs, args), rest))
    decreases |fs|
  {
    if fs == [] {
      assert FormatFields(fs, args) + rest == rest;
    } else {
      QuotedFieldsTail(fs);
      var v, after := args[fs[0].index], fs[0].after;
      var more := FormatFields(fs[1..], args) + rest;
      var r1 := after[1..] + more;
      FormatFieldsCons(fs, args, rest);
      assert r1[0] == after[1];
      Inserts.ReadRawLiteral(v, r1);
      DropFront(after[1..], more);
      MatchFormatFields(fs[1..], args, rest);
      MatchFieldsCons(fs, FormatFields(fs, args) + rest, v, r1, FieldValues(fs[1..], args), rest);
      FieldValuesCons(fs, args);
    }
  }

  /** The reader recovers from a formatted template the values of its fields, in order. */
  lemma MatchFormat(t: Template, args: seq<string>, rest: string)
    requires Fits(t, |args|) && QuotedFields(t.fields)
    requires forall i :: 0 <= i < |args| ==> Inserts.IsLiteralText(args[i])
    ensures Match(t, Format(t, args) + rest) == Some((FieldValues(t.fields, args), rest))
  {
    var s := Format(t, args) + rest;
    assert s == t.head + (FormatFields(t.fields, args) + rest);
    assert s[|t.head|..] == FormatFields(t.fields, args) + rest;
    MatchFormatFields(t.fields, args, rest);
  }

  /** The fields of `t` are `{0}`, `{1}`, ..., `{arity - 1}`, in that order. */
  predicate InOrder(t: Template, arity: nat) {
    |t.fields| == arity && forall k :: 0 <= k < |t.fields| ==> t.fields[k].index == k
  }

  lemma TemplatesAreWellFormed()
    ensures InOrder(TableTemplate, 3) && QuotedFields(TableTemplate.fields)
    ensures InOrder(SourceTemplate, 3) && QuotedFields(SourceTemplate.fields)
    ensures InOrder(ColumnTemplate, 4) && QuotedFields(ColumnTemplate.fields)
  {
  }

  lemma FieldValuesInOrder(t: Template, args: seq<string>)
    requires InOrder(t, |args|)
    ensures Fits(t, |args|) && FieldValues(t.fields, args) == args
  {
  }

  /** Every value the statement carries is literal text. */
  predicate LiteralFields(st: Statement) {
    match st
    case TableDescription(d, s, t) => Inserts.IsLiteralText(d) && Inserts.IsLiteralText(s) && Inserts.IsLiteralText(t)
    case SourceDescription(d, s, t) => Inserts.IsLiteralText(d) && Inserts.IsLiteralText(s) && Inserts.IsLiteralText(t)
    case ColumnDescription(d, s, t, c) => Inserts.IsLiteralText(d) && Inserts.IsLiteralText(s) && Inserts.IsLiteralText(t) && Inserts.IsLiteralText(c)
  }

  /** The table and source heads first differ at the letter after `N'`. */
  lemma TableSourceHeadsDiffer()
    ensures |TableHead| > 46 && |SourceHead| > 46 && TableHead[46] != SourceHead[46]
  {
    assert |ExecHeader| == 34;
    assert TableHead[46] == 'T' && SourceHead[46] == 'S';
  }

  /** The column head says `EXECUTE` where the other two say `EXEC`. */
  lemma ColumnHeadDiffers()
    ensures |TableHead| > 5 && |SourceHead| > 5 && |ColumnHead| > 5
    ensures ColumnHead[5] != TableHead[5] && ColumnHead[5] != SourceHead[5]
  {
    assert TableHead[5] == ' ' && SourceHead[5] == ' ' && ColumnHead[5] == 'U';
  }

  /** The three template heads tell the statements apart. */
  lemma HeadsDiffer(s: string)
    ensures SourceTemplate.head <= s ==> !(TableTemplate.head <= s)
    ensures ColumnTemplate.head <= s ==> !(TableTemplate.head <= s) && !(SourceTemplate.head <= s)
  {
    TableSourceHeadsDiffer();
    ColumnHeadDiffers();
    if SourceHead <= s {
      assert s[46] == SourceHead[46];
    }
    if ColumnHead <= s {
      assert s[5] == ColumnHead[5];
    }
  }

  lemma ArgsAreLiteral(st: Statement)
    requires LiteralFields(st)
    ensures forall i :: 0 <= i < |Args(st)| ==> Inserts.IsLiteralText(Args(st)[i])
  {
  }

  /** A template whose fields come in order gives back exactly its arguments. */
  lemma MatchFormatInOrder(t: Template, args: seq<string>, rest: string)
    requires InOrder(t, |args|) && QuotedFields(t.fields)
    requires forall i :: 0 <= i < |args| ==> Inserts.IsLiteralText(args[i])
    ensures Fits(t, |args|)
    ensures t.head <= Format(t, args) + rest
    ensures Match(t, Format(t, args) + rest) == Some((args, rest))
  {
    FieldValuesInOrder(t, args);
    MatchFormat(t, args, rest);
    assert Format(t, args) + rest == t.head + (FormatFields(t.fields, args) + rest);
  }

  /** Rendering a statement and matching its template gives back its arguments. */
  lemma MatchRendered(st: Statement, rest: string)
    requires LiteralFields(st)
    ensures TemplateOf(st).head <= Render(st) + rest
    ensures Match(TemplateOf(st), Render(st) + rest) == Some((Args(st), rest))
  {
    TemplatesAreWellFormed();
    ArgsAreLiteral(st);
    MatchFormatInOrder(TemplateOf(st), Args(st), rest);
  }

  /** The reader takes one rendered statement off the front of any text. */
  lemma ReadRendered(st: Statement, rest: string)
    requires LiteralFields(st)
    ensures ReadStatement(Render(st) + rest) == Some((st, rest))
  {
    MatchRendered(st, rest);
    HeadsDiffer(Render(st) + rest);
  }

  lemma {:induction false} ConcatAppend(a: seq<string>, b: seq<string>)
    ensures Concat(a + b) == Concat(a) + Concat(b)
    decreases |a|
  {
    if a == [] {
      assert a + b == b;
    } else {
      assert (a + b)[1..] == a[1..] + b;
      ConcatAppend(a[1..], b);
    }
  }

  lemma RenderAllConcat(a: seq<Statement>, b: seq<Statement>)
    ensures RenderAll(a + b) == RenderAll(a) + RenderAll(b)
  {
    assert Rendered(a + b) == Rendered(a) + Rendered(b);
    ConcatAppend(Rendered(a), Rendered(b));
  }

  lemma RenderAllFirst(sts: seq<Statement>)
    requires sts != []
    ensures RenderAll(sts) == Render(sts[0]) + RenderAll(sts[1..])
  {
    assert Rendered(sts)[1..] == Rendered(sts[1..]);
  }

  /** One step of `ReadStatements`: a statement read off the front, then the rest. */
  lemma ReadStatementsCons(s: string, st: Statement, rest: string, more: seq<Statement>)
    requires ReadStatement(s) == Some((st, rest)) && ReadStatements(rest) == Some(more)
    ensures ReadStatements(s) == Some([st] + more)
  {
    assert |rest| < |s|;
  }

  /** Whatever statements are read back are the statements rendered, in order. */
  lemma {:induction false} ReadRenderAll(sts: seq<Statement>)
    requires AllLiteral(sts)
    ensures ReadStatements(RenderAll(sts)) == Some(sts)
    decreases |sts|
  {
    if sts == [] {
      assert RenderAll(sts) == "";
    } else {
      var rest := RenderAll(sts[1..]);
      RenderAllFirst(sts);
      ReadRendered(sts[0], rest);
      ReadRenderAll(sts[1..]);
      ReadStatementsCons(RenderAll(sts), sts[0], rest, sts[1..]);
      Strings.HeadTail(sts);
    }
  }

  lemma RenderAllOne(st: Statement)
    ensures RenderAll([st]) == Render(st)
  {
    var r := Render(st);
    assert Rendered([st]) == [r];
    assert [r][1..] == [];
    assert Concat([r]) == r + Concat([]);
  }

  /** The generated text is exactly the planned statements, rendered one after another. */
  lemma DescribeIsPlan(catalog: Catalog, schema: string, table: string,
                       description: Option<string>, source: Option<string>)
    ensures Describe(catalog, schema, table, description, source)
         == RenderAll(Plan(catalog, schema, table, description, source))
  {
    var t := if description.Some? then [TableDescription(description.value, schema, table)] else [];
    var u := if source.Some? then [SourceDescription(source.value, schema, table)] else [];
    var cols := ColumnStatements(catalog, schema, table);
    assert RenderAll(t) == if description.Some? then Render(t[0]) else "" by {
      if description.Some? { RenderAllOne(t[0]); }
    }
    assert RenderAll(u) == if source.Some? then Render(u[0]) else "" by {
      if source.Some? { RenderAllOne(u[0]); }
    }
    RenderAllConcat(t, u);
    RenderAllConcat(t + u, cols);
    assert Plan(catalog, schema, table, description, source) == t + u + cols;
  }

  predicate AllLiteral(sts: seq<Statement>) {
    forall k :: 0 <= k < |sts| ==> LiteralFields(sts[k])
  }

  lemma AllLiteralAppend(a: seq<Statement>, b: seq<Statement>)
    requires AllLiteral(a) && AllLiteral(b)
    ensures AllLiteral(a + b)
  {
    forall k | 0 <= k < |a + b|
      ensures LiteralFields((a + b)[k])
    {
      if k < |a| {
        assert (a + b)[k] == a[k];
      } else {
        assert (a + b)[k] == b[k - |a|];
      }
    }
  }

  lemma PlanIsLiteral(catalog: Catalog, schema: string, table: string,
                      description: Option<string>, source: Option<string>)
    requires Inserts.IsLiteralText(schema) && Inserts.IsLiteralText(table)
    requires description.Some? ==> Inserts.IsLiteralText(description.value)
    requires source.Some? ==> Inserts.IsLiteralText(source.value)
    requires forall k :: 0 <= k < |catalog| ==> Inserts.IsLiteralText(catalog[k].0) && Inserts.IsLiteralText(catalog[k].1)
    ensures AllLiteral(Plan(catalog, schema, table, description, source))
  {
    var t := if description.Some? then [TableDescription(description.value, schema, table)] else [];
    var u := if source.Some? then [SourceDescription(source.value, schema, table)] else [];
    var cols := ColumnStatements(catalog, schema, table);
    assert AllLiteral(t);
    assert AllLiteral(u);
    assert AllLiteral(cols);
    AllLiteralAppend(t, u);
    AllLiteralAppend(t + u, cols);
    assert Plan(catalog, schema, table, description, source) == t + u + cols;
  }

  /** When every value is literal text, the generated text reads back as: the table
      statement exactly when a table description is given, the source statement exactly
      when a source is given, then one column statement per catalog entry, in order,
      each naming the given schema and table. */
  lemma DescribeRoundTrip(catalog: Catalog, schema: string, table: string,
                          description: Option<string>, source: Option<string>)
    requires Inserts.IsLiteralText(schema) && Inserts.IsLiteralText(table)
    requires description.Some? ==> Inserts.IsLiteralText(description.value)
    requires source.Some? ==> Inserts.IsLiteralText(source.value)
    requires forall k :: 0 <= k < |catalog| ==> Inserts.IsLiteralText(catalog[k].0) && Inserts.IsLiteralText(catalog[k].1)
    ensures ReadStatements(Describe(catalog, schema, table, description, source))
         == Some(Plan(catalog, schema, table, description, source))
  {
    DescribeIsPlan(catalog, schema, table, description, source);
    PlanIsLiteral(catalog, schema, table, description, source);
    ReadRenderAll(Plan(catalog, schema, table, description, source));
  }

  /** No single quote at all. */
  predicate QuoteFree(x: string) {
    '\'' !in x
  }

  /** Both the column and its description are literal text. */
  predicate LiteralEntry(e: (string, string)) {
    Inserts.IsLiteralText(e.0) && Inserts.IsLiteralText(e.1)
  }

  /** An entry whose description is two quote-free pieces. */
  lemma PlainEntry(e: (string, string), a: string, b: string)
    requires QuoteFree(e.0) && QuoteFree(a) && QuoteFree(b) && e.1 == a + b
    ensures LiteralEntry(e)
  {
    Inserts.NoQuoteIsLiteralText(e.0);
    Inserts.NoQuoteIsLiteralText(e.1);
  }

  /** `The patient''s` and then quote-free text is literal text. */
  lemma PossessiveIsLiteral(rest: string)
    requires QuoteFree(rest)
    ensures Inserts.IsLiteralText("The patient''s" + rest)
  {
    var front, quotes, back := "The patient", "''", "s" + rest;
    assert QuoteFree(front);
    Inserts.NoQuoteIsLiteralText(front);
    Inserts.NoQuoteIsLiteralText(back);
    assert quotes[2..] == [];
    assert Inserts.IsLiteralText(quotes);
    Inserts.LiteralTextConcat(quotes, back);
    Inserts.LiteralTextConcat(front, quotes + back);
    assert front + (quotes + back) == "The patient''s" + rest;
  }

  /** An entry whose description is `The patient''s` and then quote-free text. */
  lemma PossessiveEntry(e: (string, string), rest: string)
    requires QuoteFree(e.0) && QuoteFree(rest) && e.1 == "The patient''s" + rest
    ensures LiteralEntry(e)
  {
    Inserts.NoQuoteIsLiteralText(e.0);
    PossessiveIsLiteral(rest);
  }

  // One lemma per catalog entry keeps each string literal in a proof of its own.

  lemma CatalogEntry0() ensures LiteralEntry(ColumnCatalog[0]) { PossessiveEntry(ColumnCatalog[0], " full name"); }
  lemma CatalogEntry1() ensures LiteralEntry(ColumnCatalog[1]) { PossessiveEntry(ColumnCatalog[1], " age"); }
  lemma CatalogEntry2() ensures LiteralEntry(ColumnCatalog[2]) { PossessiveEntry(ColumnCatalog[2], " gender."); }
  lemma CatalogEntry3() ensures LiteralEntry(ColumnCatalog[3]) { PossessiveEntry(ColumnCatalog[3], " blood type."); }
  lemma CatalogEntry4() ensures LiteralEntry(ColumnCatalog[4]) { PossessiveEntry(ColumnCatalog[4], " medical condition."); }
  lemma CatalogEntry5() ensures LiteralEntry(ColumnCatalog[5]) { PlainEntry(ColumnCatalog[5], "The date the patient was admitted", " to the hospital."); }
  lemma CatalogEntry6() ensures LiteralEntry(ColumnCatalog[6]) { PlainEntry(ColumnCatalog[6], "The name of the doctor in", " charge of the patient."); }
  lemma CatalogEntry7() ensures LiteralEntry(ColumnCatalog[7]) { PlainEntry(ColumnCatalog[7], "The name of the", " hospital."); }
  lemma CatalogEntry8() ensures LiteralEntry(ColumnCatalog[8]) { PlainEntry(ColumnCatalog[8], "The name of the insurance", " provider."); }
  lemma CatalogEntry9() ensures LiteralEntry(ColumnCatalog[9]) { PlainEntry(ColumnCatalog[9], "The total billing", " amount."); }
  lemma CatalogEntry10() ensures LiteralEntry(ColumnCatalog[10]) { PlainEntry(ColumnCatalog[10], "The room number assigned", " to the patient."); }
  lemma CatalogEntry11() ensures LiteralEntry(ColumnCatalog[11]) { PlainEntry(ColumnCatalog[11], "The type of admission (e.g.,", " emergency, elective)."); }
  lemma CatalogEntry12() ensures LiteralEntry(ColumnCatalog[12]) { PlainEntry(ColumnCatalog[12], "The date the patient was discharged", " from the hospital."); }
  lemma CatalogEntry13() ensures LiteralEntry(ColumnCatalog[13]) { PlainEntry(ColumnCatalog[13], "The medication prescribed", " to the patient."); }
  lemma CatalogEntry14() ensures LiteralEntry(ColumnCatalog[14]) { PlainEntry(ColumnCatalog[14], "The results of any tests conducted", " on the patient."); }

  /** Every label and description of `column_descriptions` is literal text: the single
      quotes of the first five descriptions are doubled, and the rest have none. */
  lemma CatalogIsLiteral()
    ensures forall k :: 0 <= k < |ColumnCatalog| ==>
      Inserts.IsLiteralText(ColumnCatalog[k].0) && Inserts.IsLiteralText(ColumnCatalog[k].1)
  {
    forall k | 0 <= k < |ColumnCatalog|
      ensures LiteralEntry(ColumnCatalog[k])
    {
      if k == 0 {
        CatalogEntry0();
      } else if k == 1 {
        CatalogEntry1();
      } else if k == 2 {
        CatalogEntry2();
      } else if k == 3 {
        CatalogEntry3();
      } else if k == 4 {
        CatalogEntry4();
      } else if k == 5 {
        CatalogEntry5();
      } else if k == 6 {
        CatalogEntry6();
      } else if k == 7 {
        CatalogEntry7();
      } else if k == 8 {
        CatalogEntry8();
      } else if k == 9 {
        CatalogEntry9();
      } else if k == 10 {
        CatalogEntry10();
      } else if k == 11 {
        CatalogEntry11();
      } else if k == 12 {
        CatalogEntry12();
      } else if k == 13 {
        CatalogEntry13();
      } else {
        CatalogEntry14();
      }
    }
  }

  /** The generator on its own catalog: with literal text in the schema, the table and
      the given descriptions, the generated text reads back as exactly the planned
      statements, one per catalog column after the optional two. */
  lemma DescribeCatalogRoundTrip(schema: string, table: string,
                                 description: Option<string>, source: Option<string>)
    requires Inserts.IsLiteralText(schema) && Inserts.IsLiteralText(table)
    requires description.Some? ==> Inserts.IsLiteralText(description.value)
    requires source.Some? ==> Inserts.IsLiteralText(source.value)
    ensures ReadStatements(Describe(ColumnCatalog, schema, table, description, source))
         == Some(Plan(ColumnCatalog, schema, table, description, source))
  {
    CatalogIsLiteral();
    DescribeRoundTrip(ColumnCatalog, schema, table, description, source);
  }

  /** Describing two catalogs one after the other is describing their concatenation. */
  lemma DescribeColumnsAppend(a: Catalog, b: Catalog, schema: string, table: string)
    ensures Describe(a + b, schema, table, None, None)
         == Describe(a, schema, table, None, None) + Describe(b, schema, table, None, None)
  {
    var ca, cb := ColumnStatements(a, schema, table), ColumnStatements(b, schema, table);
    assert ColumnStatements(a + b, schema, table) == ca + cb;
    RenderAllConcat(ca, cb);
    assert Describe(a + b, schema, table, None, None) == RenderAll(ca + cb);
    assert Describe(a, schema, table, None, None) == RenderAll(ca);
    assert Describe(b, schema, table, None, None) == RenderAll(cb);
  }

  /** Line 109 as written raises before anything is generated, whatever the arguments. */
  lemma AsWrittenAlwaysFails(catalog: Catalog, schema: string, table: string,
                             description: Option<string>, source: Option<string>)
    ensures DescribeAsWritten(catalog, schema, table, description, source) == Failure(NotEnoughValues(0))
    ensures Unpack2("") != Success(("", ""))
  {
  }
}

=== FILE: Frames.dfy ===
/**
 The data frame as the cleaner sees it: an ordered list of columns, each with its
 label, its pandas dtype and the `str()` rendering of each of its cells.
 */
module Frames {

  /** The dtype tags `clean_data` tests for (`'object'`, `'float64'`, `'int64'`,
      `'datetime64[ns]'` alias `'<M8[ns]'`); `Other` is any dtype it does not test
      for, such as `bool` or `category`. */
  datatype DType = Object | Float64 | Int64 | DateTime | Other(dtypeName: string)

  /** One column; `cells[k]` is the `str()` rendering of the value in row `k`, and
      `allText` says whether every value is a Python `str` (a missing value, which
      pandas holds as the float NaN and renders `nan`, is not). */
  datatype Column = Column(header: string, dtype: DType, cells: seq<string>, allText: bool)

  type Table = seq<Column>

  /** The exceptions `clean_data` can raise on a table. */
  datatype CleanError =
    | MissingColumn(missing: string)       // `KeyError` from `df[...]`
    | UnrecognisedDtype(column: string)    // an `Other` dtype, reported explicitly
    | UnboundTypeToken(column: string)     // `UnboundLocalError` on `column_data_type`
    | NameNotText(column: string)          // `AttributeError` from `.lower()` on a value that is not a `str`

  function Headers(t: Table): (hs: seq<string>)
    ensures |hs| == |t|
    ensures forall i :: 0 <= i < |t| ==> hs[i] == t[i].header
  {
    seq(|t|, i requires 0 <= i < |t| => t[i].header)
  }

  /** Every value `str` methods are applied to is a `str`: vacuously so for a column
      with no rows. */
  predicate IsText(c: Column) {
    c.allText || c.cells == []
  }

  predicate HasColumn(t: Table, header: string) {
    exists i :: 0 <= i < |t| && t[i].header == header
  }
}

=== FILE: Inserts.dfy ===
/**
 The insert serialiser `sql_insert_statement_gen`: one
 `INSERT INTO schema.table VALUES ('v1', 'v2', ...);` per row, in row order, joined by
 line feeds. Every value is its `str()` rendering in single quotes, whatever its dtype.
 A reader for such statements recovers the rows, which shows what the text keeps.
 */
module Inserts {
  import opened Strings
  import opened Wrappers

  /** How a value is put between single quotes: `Verbatim` as the source does it, or
      `Escaped` with each single quote in the value doubled as SQL requires. */
  datatype Quoting = Verbatim | Escaped

  /** Doubles every single quote. */
  function Escape(v: string): (e: string)
    ensures |e| >= |v|
    ensures '\'' !in v ==> e == v
  {
    if v == [] then []
    else (if v[0] == '\'' then "''" else [v[0]]) + Escape(v[1..])
  }

  function Quote(q: Quoting, v: string): string
  {
    match q
    case Verbatim => "'" + v + "'"
    case Escaped => "'" + Escape(v) + "'"
  }

  /** `[f"'{str(value)}'" for value in row.values]` */
  function Quoted(q: Quoting, row: seq<string>): (qs: seq<string>)
    ensures |qs| == |row|
    ensures forall i :: 0 <= i < |row| ==> qs[i] == Quote(q, row[i])
  {
    seq(|row|, i requires 0 <= i < |row| => Quote(q, row[i]))
  }

  /** `', '.join([f"'{str(value)}'" for value in row.values])` */
  function ValueList(q: Quoting, row: seq<string>): string
  {
    Join(", ", Quoted(q, row))
  }

  function StatementHead(schema: string, table: string): string
  {
    "INSERT INTO " + schema + "." + table + " VALUES ("
  }

  /** The statement for one row (line 147). */
  function Statement(q: Quoting, schema: string, table: string, row: seq<string>): string
  {
    StatementHead(schema, table) + ValueList(q, row) + ");"
  }

  function Statements(q: Quoting, schema: string, table: string, rows: seq<seq<string>>): (ss: seq<string>)
    ensures |ss| == |rows|
    ensures forall i :: 0 <= i < |rows| ==> ss[i] == Statement(q, schema, table, rows[i])
  {
    seq(|rows|, i requires 0 <= i < |rows| => Statement(q, schema, table, rows[i]))
  }

  /** The `text` the function builds (line 149): the statements joined by line feeds. */
  function InsertText(q: Quoting, schema: string, table: string, rows: seq<seq<string>>): string
  {
    Join("\n", Statements(q, schema, table, rows))
  }

  // ---------------------------------------------------------------------------
  // Reading the statements back

  /** Text that may stand between the quotes of an SQL literal: every single quote is
      doubled. */
  predicate IsLiteralText(x: string)
    decreases |x|
  {
    x == [] || (if x[0] == '\'' then |x| >= 2 && x[1] == '\'' && IsLiteralText(x[2..]) else IsLiteralText(x[1..]))
  }

  /** Reads a literal's text as written, up to the single quote that closes it. */
  function ReadRaw(s: string): (r: Option<(string, string)>)
    ensures r.Some? ==> |r.value.1| < |s|
  {
    if s == [] then None
    else if s[0] == '\'' then
      if |s| >= 2 && s[1] == '\'' then
        match ReadRaw(s[2..])
        case None => None
        case Some((v, rest)) => Some(("''" + v, rest))
      else Some(([], s[1..]))
    else
      match ReadRaw(s[1..])
      case None => None
      case Some((v, rest)) => Some(([s[0]] + v, rest))
  }

  /** The value that literal text stands for: each `''` is one `'`. */
  function Unescape(x: string): string
    decreases |x|
  {
    if x == [] then []
    else if |x| >= 2 && x[0] == '\'' && x[1] == '\'' then "'" + Unescape(x[2..])
    else [x[0]] + Unescape(x[1..])
  }

  /** Reads one single-quoted literal off the front of `s`, unescaped. */
  function ReadLiteral(s: string): (r: Option<(string, string)>)
    ensures r.Some? ==> |r.value.1| < |s|
  {
    if |s| > 0 && s[0] == '\'' then
      match ReadRaw(s[1..])
      case None => None
      case Some((x, rest)) => Some((Unescape(x), rest))
    else None
  }

  /** Reads `'v1', 'v2', ...` with at least one literal. */
  function ParseLiterals(s: string): Option<seq<string>>
    decreases |s|
  {
    match ReadLiteral(s)
    case None => None
    case Some((v, rest)) =>
      if rest == [] then Some([v])
      else if |rest| >= 2 && rest[..2] == ", " then
        match ParseLiterals(rest[2..])
        case None => None
        case Some(more) => Some([v] + more)
      else None
  }

  function ParseValueList(s: string): Option<seq<string>>
  {
    if s == [] then Some([]) else ParseLiterals(s)
  }

  /** Reads one statement for the given schema and table back into its row. */
  function ParseStatement(schema: string, table: string, s: string): Option<seq<string>>
  {
    var head := StatementHead(schema, table);
    if |s| >= |head| + 2 && head <= s && s[|s| - 2..] == ");" then
      ParseValueList(s[|head|..|s| - 2])
    else None
  }

  function ParseStatements(schema: string, table: string, lines: seq<string>): Option<seq<seq<string>>>
  {
    if lines == [] then Some([])
    else
      match ParseStatement(schema, table, lines[0])
      case None => None
      case Some(row) =>
        match ParseStatements(schema, table, lines[1..])
        case None => None
        case Some(more) => Some([row] + more)
  }

  /** Reads a whole insert file back into its rows. */
  function ParseInsertText(schema: string, table: string, text: string): Option<seq<seq<string>>>
  {
    if text == [] then Some([]) else ParseStatements(schema, table, SplitOn('\n', text))
  }

  // ---------------------------------------------------------------------------
  // Properties

  lemma {:induction false} NoQuoteIsLiteralText(x: string)
    requires '\'' !in x
    ensures IsLiteralText(x)
    decreases |x|
  {
    if x != [] {
      assert x[0] in x;
      assert forall c :: c in x[1..] ==> c in x;
      NoQuoteIsLiteralText(x[1..]);
    }
  }

  lemma {:induction false} LiteralTextConcat(a: string, b: string)
    requires IsLiteralText(a) && IsLiteralText(b)
    ensures IsLiteralText(a + b)
    decreases |a|
  {
    if a == [] {
      assert a + b == b;
    } else {
      if a[0] == '\'' {
        assert (a + b)[2..] == a[2..] + b;
        LiteralTextConcat(a[2..], b);
      } else {
        assert (a + b)[1..] == a[1..] + b;
        LiteralTextConcat(a[1..], b);
      }
    }
  }

  /** Escaping always yields literal text. */
  lemma {:induction false} EscapeIsLiteralText(v: string)
    ensures IsLiteralText(Escape(v))
    decreases |v|
  {
    if v != [] {
      EscapeIsLiteralText(v[1..]);
      var head := if v[0] == '\'' then "''" else [v[0]];
      assert Escape(v) == head + Escape(v[1..]);
      if v[0] == '\'' {
        assert IsLiteralText(head) by { assert head[2..] == []; }
      } else {
        assert IsLiteralText(head) by { assert head[1..] == []; }
      }
      LiteralTextConcat(head, Escape(v[1..]));
    }
  }

  lemma {:induction false} ReadRawLiteral(x: string, rest: string)
    requires IsLiteralText(x)
    requires rest == [] || rest[0] != '\''
    ensures ReadRaw(x + "'" + rest) == Some((x, rest))
    decreases |x|
  {
    var s := x + "'" + rest;
    if x == [] {
      assert s == "'" + rest;
    } else if x[0] == '\'' {
      assert s[2..] == x[2..] + "'" + rest;
      ReadRawLiteral(x[2..], rest);
      assert "''" + x[2..] == x;
    } else {
      assert s[1..] == x[1..] + "'" + rest;
      ReadRawLiteral(x[1..], rest);
      HeadTail(x);
    }
  }

  /** Unescaping undoes escaping. */
  lemma {:induction false} UnescapeEscape(v: string)
    ensures Unescape(Escape(v)) == v
    decreases |v|
  {
    if v != [] {
      UnescapeEscape(v[1..]);
      var e := Escape(v);
      if v[0] == '\'' {
        assert e == "''" + Escape(v[1..]);
        assert e[2..] == Escape(v[1..]);
        assert "'" == [v[0]];
      } else {
        assert e == [v[0]] + Escape(v[1..]);
        assert e[1..] == Escape(v[1..]);
      }
      HeadTail(v);
    }
  }

  /** Literal text is exactly what escaping produces: escaping its unescaped value gives
      it back. */
  lemma {:induction false} EscapeUnescape(x: string)
    requires IsLiteralText(x)
    ensures Escape(Unescape(x)) == x
    decreases |x|
  {
    if x != [] {
      if x[0] == '\'' {
        EscapeUnescape(x[2..]);
        assert Unescape(x) == "'" + Unescape(x[2..]);
        assert Escape("'" + Unescape(x[2..])) == "''" + Escape(Unescape(x[2..])) by {
          assert ("'" + Unescape(x[2..]))[1..] == Unescape(x[2..]);
        }
        assert x == "''" + x[2..];
      } else {
        EscapeUnescape(x[1..]);
        assert Unescape(x) == [x[0]] + Unescape(x[1..]);
        assert Escape([x[0]] + Unescape(x[1..])) == [x[0]] + Escape(Unescape(x[1..])) by {
          assert ([x[0]] + Unescape(x[1..]))[1..] == Unescape(x[1..]);
        }
        HeadTail(x);
      }
    }
  }

  lemma ReadQuoted(v: string, rest: string)
    requires rest == [] || rest[0] != '\''
    ensures ReadLiteral(Quote(Escaped, v) + rest) == Some((v, rest))
  {
    var s := Quote(Escaped, v) + rest;
    assert s[1..] == Escape(v) + "'" + rest;
    EscapeIsLiteralText(v);
    ReadRawLiteral(Escape(v), rest);
    UnescapeEscape(v);
  }

  lemma {:induction false} LiteralsRoundTrip(row: seq<string>)
    requires |row| > 0
    ensures ParseLiterals(ValueList(Escaped, row)) == Some(row)
  {
    var qs := Quoted(Escaped, row);
    if |row| == 1 {
      assert ValueList(Escaped, row) == qs[0];
      ReadQuoted(row[0], []);
      assert qs[0] + [] == qs[0];
      assert ParseLiterals(qs[0]) == Some([row[0]]);
      assert row == [row[0]];
    } else {
      var more := Quoted(Escaped, row[1..]);
      assert qs[1..] == more;
      var j := Join(", ", more);
      assert ValueList(Escaped, row) == qs[0] + (", " + j);
      ReadQuoted(row[0], ", " + j);
      assert (", " + j)[..2] == ", ";
      assert (", " + j)[2..] == j;
      LiteralsRoundTrip(row[1..]);
      HeadTail(row);
    }
  }

  /** With escaping, the value list reads back as exactly the row's values, in order. */
  lemma ValueListRoundTrip(row: seq<string>)
    ensures ParseValueList(ValueList(Escaped, row)) == Some(row)
  {
    if |row| > 0 {
      LiteralsRoundTrip(row);
      assert ValueList(Escaped, row) != [] by {
        var qs := Quoted(Escaped, row);
        assert |qs| == 1 ==> ValueList(Escaped, row) == qs[0];
        assert |qs| > 1 ==> ValueList(Escaped, row) == qs[0] + ", " + Join(", ", qs[1..]);
      }
    }
  }

  /** One statement reads back as the row it was made from. */
  lemma StatementRoundTrip(schema: string, table: string, row: seq<string>)
    ensures ParseStatement(schema, table, Statement(Escaped, schema, table, row)) == Some(row)
  {
    var head := StatementHead(schema, table);
    var body := ValueList(Escaped, row);
    var s := Statement(Escaped, schema, table, row);
    assert s == head + body + ");";
    assert s[|head|..|s| - 2] == body;
    ValueListRoundTrip(row);
  }

  lemma EscapeWithout(c: char, v: string)
    requires c != '\'' && c !in v
    ensures c !in Escape(v)
  {
  }

  lemma StatementWithout(c: char, q: Quoting, schema: string, table: string, row: seq<string>)
    requires c !in "INSERT INTO . VALUES (', );"
    requires c !in schema && c !in table
    requires forall i :: 0 <= i < |row| ==> c !in row[i]
    ensures c !in Statement(q, schema, table, row)
  {
    var qs := Quoted(q, row);
    forall i | 0 <= i < |row|
      ensures c !in qs[i]
    {
      EscapeWithout(c, row[i]);
    }
    JoinWithout(c, ", ", qs);
  }

  lemma {:induction false} StatementsRoundTrip(schema: string, table: string, rows: seq<seq<string>>)
    ensures ParseStatements(schema, table, Statements(Escaped, schema, table, rows)) == Some(rows)
  {
    if rows != [] {
      StatementRoundTrip(schema, table, rows[0]);
      assert Statements(Escaped, schema, table, rows)[1..] == Statements(Escaped, schema, table, rows[1..]);
      StatementsRoundTrip(schema, table, rows[1..]);
      HeadTail(rows);
    }
  }

  lemma NoLineFeedInFrame()
    ensures '\n' !in "INSERT INTO . VALUES (', );"
  {
  }

  /** No statement holds a line feed when no schema, table or value does. */
  lemma StatementsWithoutLineFeed(schema: string, table: string, rows: seq<seq<string>>)
    requires '\n' !in schema && '\n' !in table
    requires forall k, i :: 0 <= k < |rows| && 0 <= i < |rows[k]| ==> '\n' !in rows[k][i]
    ensures forall k :: 0 <= k < |rows| ==> '\n' !in Statements(Escaped, schema, table, rows)[k]
  {
    var ss := Statements(Escaped, schema, table, rows);
    NoLineFeedInFrame();
    forall k | 0 <= k < |rows|
      ensures '\n' !in ss[k]
    {
      StatementWithout('\n', Escaped, schema, table, rows[k]);
    }
  }

  /** Joining a non-empty list whose first element is non-empty gives non-empty text. */
  lemma JoinNonEmpty(sep: string, xs: seq<string>)
    requires |xs| > 0 && xs[0] != []
    ensures Join(sep, xs) != []
  {
    assert |xs| == 1 ==> Join(sep, xs) == xs[0];
    assert |xs| > 1 ==> Join(sep, xs) == xs[0] + sep + Join(sep, xs[1..]);
  }

  /** With escaping, and when no schema, table or value holds a line feed, the insert
      text holds one statement per row, in row order, and reads back as exactly the rows. */
  lemma InsertTextRoundTrip(schema: string, table: string, rows: seq<seq<string>>)
    requires '\n' !in schema && '\n' !in table
    requires forall k, i :: 0 <= k < |rows| && 0 <= i < |rows[k]| ==> '\n' !in rows[k][i]
    ensures ParseInsertText(schema, table, InsertText(Escaped, schema, table, rows)) == Some(rows)
    ensures |rows| > 0 ==> SplitOn('\n', InsertText(Escaped, schema, table, rows)) == Statements(Escaped, schema, table, rows)
  {
    var ss := Statements(Escaped, schema, table, rows);
    StatementsRoundTrip(schema, table, rows);
    if |rows| > 0 {
      StatementsWithoutLineFeed(schema, table, rows);
      SplitOnJoin('\n', ss);
      assert "\n" == ['\n'];
      assert |ss[0]| > 0;
      JoinNonEmpty("\n", ss);
    }
  }

  /** Without single quotes in the values, quoting verbatim and escaping agree. */
  lemma VerbatimAgreesWithoutQuotes(schema: string, table: string, row: seq<string>)
    requires forall i :: 0 <= i < |row| ==> '\'' !in row[i]
    ensures Statement(Verbatim, schema, table, row) == Statement(Escaped, schema, table, row)
  {
    var vs := Quoted(Verbatim, row);
    var es := Quoted(Escaped, row);
    assert vs == es;
  }

  /** The serialiser as written reads back as the rows when no value holds a single
      quote or a line feed and neither the schema nor the table holds a line feed. */
  lemma InsertTextVerbatimRoundTrip(schema: string, table: string, rows: seq<seq<string>>)
    requires '\n' !in schema && '\n' !in table
    requires forall k, i :: 0 <= k < |rows| && 0 <= i < |rows[k]| ==> '\n' !in rows[k][i] && '\'' !in rows[k][i]
    ensures ParseInsertText(schema, table, InsertText(Verbatim, schema, table, rows)) == Some(rows)
  {
    forall k | 0 <= k < |rows|
      ensures Statement(Verbatim, schema, table, rows[k]) == Statement(Escaped, schema, table, rows[k])
    {
      VerbatimAgreesWithoutQuotes(schema, table, rows[k]);
    }
    assert Statements(Verbatim, schema, table, rows) == Statements(Escaped, schema, table, rows);
    InsertTextRoundTrip(schema, table, rows);
  }

  /** Quoting verbatim, a name such as `O'Neil` (which the name normaliser produces) ends
      its literal early: the value list no longer reads back as the row. */
  lemma VerbatimBreaksOnApostrophe()
    ensures ParseValueList(ValueList(Verbatim, ["O'Neil"])) == None
    ensures ParseValueList(ValueList(Escaped, ["O'Neil"])) == Some(["O'Neil"])
  {
    var row := ["O'Neil"];
    var qs := Quoted(Verbatim, row);
    assert qs[0] == "'" + "O'Neil" + "'" == "'O'Neil'";
    assert qs == ["'O'Neil'"];
    assert ValueList(Verbatim, row) == "'O'Neil'";
    var t := "O'Neil'";
    assert "'O'Neil'"[1..] == t;
    assert t[1..] == "'Neil'";
    assert "'Neil'"[1..] == "Neil'";
    assert ReadRaw("'Neil'") == Some(([], "Neil'"));
    assert ['O'] + [] == "O";
    assert ReadRaw(t) == Some(("O", "Neil'"));
    assert Unescape("O") == "O";
    assert ReadLiteral("'O'Neil'") == Some(("O", "Neil'"));
    assert "Neil'"[..2] == "Ne";
    ValueListRoundTrip(["O'Neil"]);
  }
}

=== FILE: Labels.dfy ===
/**
 The two column renames at the start of `clean_data`: every label is stripped,
 lower-cased and has its spaces turned into underscores, and then the synonym
 table renames `name` and `age`.
 */
module Labels {
  import opened Ascii
  import opened Strings

  /** A label as the first rename leaves it: no whitespace at the ends, no
      upper-case letter, no space character. */
  predicate IsCleanLabel(text: string) {
    && Trimmed(text)
    && forall i :: 0 <= i < |text| ==> !IsUpper(text[i]) && text[i] != ' '
  }

  /** `x.strip().lower().replace(" ", "_")` */
  function CleanLabel(text: string): (r: string)
    ensures |r| == |Strip(text)|
    ensures IsCleanLabel(r)
  {
    Replace(Lower(Strip(text)), ' ', '_')
  }

  /** The synonym table `{'name': 'patient_name', 'age': 'patient_age'}` applied to one label. */
  function Synonym(text: string): string
  {
    if text == "name" then "patient_name"
    else if text == "age" then "patient_age"
    else text
  }

  /** Both renames, as `clean_data` applies them to one column label. */
  function NormaliseLabel(text: string): (r: string)
    ensures IsCleanLabel(r)
  {
    Synonym(CleanLabel(text))
  }

  /** Both renames applied to the table's labels, column by column. */
  function NormaliseLabels(labels: seq<string>): (r: seq<string>)
    ensures |r| == |labels|
    ensures forall i :: 0 <= i < |labels| ==> r[i] == NormaliseLabel(labels[i])
  {
    seq(|labels|, i requires 0 <= i < |labels| => NormaliseLabel(labels[i]))
  }

  // ---------------------------------------------------------------------------

  /** A label that is already clean passes the first rename unchanged. */
  lemma CleanLabelKeepsClean(text: string)
    requires IsCleanLabel(text)
    ensures CleanLabel(text) == text
  {
    StripTrimmed(text);
    assert Lower(text) == text;
  }

  lemma CleanLabelIdempotent(text: string)
    ensures CleanLabel(CleanLabel(text)) == CleanLabel(text)
  {
    CleanLabelKeepsClean(CleanLabel(text));
  }

  /** The synonym table renames `name` and `age` and nothing else, and it renames
      simultaneously: a target label is never renamed again. */
  lemma SynonymRenamesTwo(text: string)
    ensures Synonym(text) != text <==> text == "name" || text == "age"
    ensures Synonym(Synonym(text)) == Synonym(text)
    ensures IsCleanLabel(text) ==> IsCleanLabel(Synonym(text))
  {
  }

  /** Normalising the labels of an already normalised table changes nothing. */
  lemma NormaliseLabelsIdempotent(labels: seq<string>)
    ensures NormaliseLabels(NormaliseLabels(labels)) == NormaliseLabels(labels)
  {
    forall i | 0 <= i < |labels|
      ensures NormaliseLabel(NormaliseLabel(labels[i])) == NormaliseLabel(labels[i])
    {
      var c := CleanLabel(labels[i]);
      SynonymRenamesTwo(c);
      CleanLabelKeepsClean(Synonym(c));
    }
  }
}

=== FILE: NameConvention.dfy ===
/**
 The patient-name normaliser `human_name_convention`: lower-case the name, title-case it,
 strip the ends, and rebuild it from its words joined by single spaces.
 */
module NameConvention {
  import opened Ascii
  import opened Strings

  /** The case `str.title()` gives a character, given whether the character before it is cased. */
  function TitleChar(c: char, afterLetter: bool): (d: char)
    ensures !IsLetter(c) ==> d == c
    ensures IsLetter(c) ==> IsLetter(d) && ToLower(d) == ToLower(c) && (IsUpper(d) <==> !afterLetter)
  {
    if afterLetter then ToLower(c) else ToUpper(c)
  }

  /** CPython's `str.title()` loop; `afterLetter` says whether the previous character was cased. */
  function TitleFrom(s: string, afterLetter: bool): (r: string)
    ensures |r| == |s|
    ensures forall i :: 0 <= i < |s| ==>
      r[i] == TitleChar(s[i], if i == 0 then afterLetter else IsLetter(s[i - 1]))
  {
    if s == [] then [] else [TitleChar(s[0], afterLetter)] + TitleFrom(s[1..], IsLetter(s[0]))
  }

  /** `s.title()`: a letter is upper-case exactly when it is first or follows a non-letter,
      and every other character is left as it is. */
  function Title(s: string): (r: string)
    ensures |r| == |s|
    ensures forall i :: 0 <= i < |s| && !IsLetter(s[i]) ==> r[i] == s[i]
    ensures forall i :: 0 <= i < |s| && IsLetter(s[i]) ==>
      && IsLetter(r[i])
      && ToLower(r[i]) == ToLower(s[i])
      && (IsUpper(r[i]) <==> i == 0 || !IsLetter(s[i - 1]))
  {
    TitleFromFacts(s, false);
    TitleFrom(s, false)
  }

  lemma TitleFromFacts(s: string, f: bool)
    ensures forall i :: 0 <= i < |s| && !IsLetter(s[i]) ==> TitleFrom(s, f)[i] == s[i]
    ensures forall i :: 0 <= i < |s| && IsLetter(s[i]) ==>
      && IsLetter(TitleFrom(s, f)[i])
      && ToLower(TitleFrom(s, f)[i]) == ToLower(s[i])
      && (IsUpper(TitleFrom(s, f)[i]) <==> !(if i == 0 then f else IsLetter(s[i - 1])))
  {
    forall i | 0 <= i < |s|
      ensures var d := TitleFrom(s, f)[i];
        && (!IsLetter(s[i]) ==> d == s[i])
        && (IsLetter(s[i]) ==>
              && IsLetter(d)
              && ToLower(d) == ToLower(s[i])
              && (IsUpper(d) <==> !(if i == 0 then f else IsLetter(s[i - 1]))))
    {
      var b := if i == 0 then f else IsLetter(s[i - 1]);
      assert TitleFrom(s, f)[i] == TitleChar(s[i], b);
    }
  }

  /** `human_name_convention` */
  function HumanName(name: string): string
  {
    var titled := Strip(Title(Lower(name)));
    Join(" ", Split(titled))
  }

  /** Title-cases every word of a list. */
  function TitleWords(ws: seq<string>): (ts: seq<string>)
    ensures |ts| == |ws|
    ensures forall i :: 0 <= i < |ws| ==> ts[i] == Title(ws[i])
  {
    if ws == [] then [] else [Title(ws[0])] + TitleWords(ws[1..])
  }

  /** Every letter is upper-case exactly when it opens a run of letters. */
  predicate TitleCased(h: string) {
    forall i :: 0 <= i < |h| && IsLetter(h[i]) ==> (IsUpper(h[i]) <==> i == 0 || !IsLetter(h[i - 1]))
  }

  // ---------------------------------------------------------------------------
  // Properties of title-casing

  /** Title-casing does not look at the case of its input. */
  lemma TitleIgnoresCase(s: string)
    ensures Title(Lower(s)) == Title(s)
  {
    var l := Lower(s);
    forall i | 0 <= i < |s|
      ensures Title(l)[i] == Title(s)[i]
    {
      assert i > 0 ==> IsLetter(l[i - 1]) == IsLetter(s[i - 1]);
    }
  }

  lemma TitleIdempotent(s: string)
    ensures Title(Title(s)) == Title(s)
  {
    var t := Title(s);
    forall i | 0 <= i < |s|
      ensures Title(t)[i] == t[i]
    {
      assert i > 0 ==> IsLetter(t[i - 1]) == IsLetter(s[i - 1]);
    }
  }

  /** Title-casing keeps whitespace where it is and creates none. */
  lemma TitleKeepsSpace(s: string)
    ensures forall i :: 0 <= i < |s| ==> (IsSpace(Title(s)[i]) <==> IsSpace(s[i]))
  {
  }

  /** Starting after a non-letter is the same as starting afresh. */
  lemma TitleFromFresh(s: string, afterLetter: bool)
    requires s == [] || !IsLetter(s[0])
    ensures TitleFrom(s, afterLetter) == Title(s)
  {
  }

  /** Whether a character following `a` (title-cased from state `f`) comes after a letter. */
  function AfterLetter(a: string, f: bool): bool {
    if a == [] then f else IsLetter(a[|a| - 1])
  }

  lemma TitleFromConcat(a: string, b: string, f: bool)
    ensures TitleFrom(a + b, f) == TitleFrom(a, f) + TitleFrom(b, AfterLetter(a, f))
  {
    var l, r := TitleFrom(a + b, f), TitleFrom(a, f) + TitleFrom(b, AfterLetter(a, f));
    forall i | 0 <= i < |a + b|
      ensures l[i] == r[i]
    {
      if i < |a| {
        assert (a + b)[i] == a[i];
        assert i > 0 ==> (a + b)[i - 1] == a[i - 1];
      } else {
        var j := i - |a|;
        assert (a + b)[i] == b[j];
        if j > 0 {
          assert (a + b)[i - 1] == b[j - 1];
        } else if a != [] {
          assert (a + b)[i - 1] == a[|a| - 1];
        }
      }
    }
    assert l == r;
  }

  lemma TitleConcat(a: string, b: string)
    ensures Title(a + b) == Title(a) + TitleFrom(b, a != [] && IsLetter(a[|a| - 1]))
  {
    TitleFromConcat(a, b, false);
  }

  /** A word followed by whitespace title-cases independently of what follows. */
  lemma TitleWordThenRest(w: string, rest: string)
    requires rest == [] || IsSpace(rest[0])
    ensures Title(w + rest) == Title(w) + Title(rest)
  {
    TitleConcat(w, rest);
    TitleFromFresh(rest, w != [] && IsLetter(w[|w| - 1]));
  }

  lemma {:induction false} LStripTitle(s: string)
    ensures LStrip(Title(s)) == Title(LStrip(s))
  {
    if s != [] && IsSpace(s[0]) {
      TitleConcat([s[0]], s[1..]);
      HeadTail(s);
      var x := Title(s[1..]);
      assert Title(s) == [s[0]] + x;
      assert ([s[0]] + x)[1..] == x;
      LStripTitle(s[1..]);
    }
  }

  lemma TitleWordIsWord(w: string)
    requires IsWord(w)
    ensures IsWord(Title(w))
  {
    TitleKeepsSpace(w);
  }

  /** `split()` commutes with title-casing. */
  lemma {:induction false} SplitTitle(s: string)
    ensures Split(Title(s)) == TitleWords(Split(s))
    decreases |s|
  {
    var t := LStrip(s);
    LStripTitle(s);
    SplitLStrip(s);
    SplitLStrip(Title(s));
    if t != [] {
      var w := TakeWord(t);
      var rest := t[|w|..];
      assert t == w + rest;
      assert Split(t) == [w] + Split(rest);
      TitleWordThenRest(w, rest);
      assert IsWord(w) by { assert !IsSpace(t[0]); }
      TitleWordIsWord(w);
      TitleKeepsSpace(rest);
      SplitLeadingWord(Title(w), Title(rest));
      SplitTitle(rest);
      assert TitleWords([w] + Split(rest)) == [Title(w)] + TitleWords(Split(rest));
    }
  }

  lemma {:induction false} TitleJoin(ws: seq<string>)
    ensures Title(Join(" ", ws)) == Join(" ", TitleWords(ws))
  {
    if |ws| >= 2 {
      var w, j := ws[0], Join(" ", ws[1..]);
      assert Join(" ", ws) == w + (" " + j);
      TitleWordThenRest(w, " " + j);
      TitleConcat(" ", j);
      TitleJoin(ws[1..]);
      assert TitleWords(ws)[1..] == TitleWords(ws[1..]);
    }
  }

  lemma TitleWordsIdempotent(ws: seq<string>)
    ensures TitleWords(TitleWords(ws)) == TitleWords(ws)
  {
    forall i | 0 <= i < |ws|
      ensures Title(Title(ws[i])) == Title(ws[i])
    {
      TitleIdempotent(ws[i]);
    }
  }

  lemma TitleWordsAreWords(ws: seq<string>)
    requires AllWords(ws)
    ensures AllWords(TitleWords(ws))
  {
    forall i | 0 <= i < |ws|
      ensures IsWord(Title(ws[i]))
    {
      TitleWordIsWord(ws[i]);
    }
  }

  // ---------------------------------------------------------------------------
  // Properties of the name normaliser

  /** The normalised name is the title-cased words of the input joined by single spaces. */
  lemma HumanNameTitlesEachWord(name: string)
    ensures HumanName(name) == Join(" ", TitleWords(Split(name)))
  {
    var t := Title(Lower(name));
    SplitStrip(t);
    TitleIgnoresCase(name);
    SplitTitle(name);
  }

  /** No whitespace at the ends, no whitespace but spaces, and no two spaces in a row. */
  lemma HumanNameWellSpaced(name: string)
    ensures WellSpaced(HumanName(name))
  {
    JoinWordsShape(Split(Strip(Title(Lower(name)))));
  }

  /** The words of the normalised name are the words of the input, title-cased, in order. */
  lemma HumanNameWords(name: string)
    ensures Split(HumanName(name)) == TitleWords(Split(name))
  {
    HumanNameTitlesEachWord(name);
    TitleWordsAreWords(Split(name));
    SplitJoin(TitleWords(Split(name)));
  }

  /** Normalising a normalised name changes nothing. */
  lemma HumanNameIdempotent(name: string)
    ensures HumanName(HumanName(name)) == HumanName(name)
  {
    var h := HumanName(name);
    HumanNameTitlesEachWord(name);
    HumanNameTitlesEachWord(h);
    HumanNameWords(name);
    TitleWordsIdempotent(Split(name));
  }

  /** Every letter of the normalised name is upper-case exactly when it opens a run of letters. */
  lemma HumanNameTitleCased(name: string)
    ensures Title(HumanName(name)) == HumanName(name)
    ensures TitleCased(HumanName(name))
  {
    HumanNameTitlesEachWord(name);
    TitleJoin(TitleWords(Split(name)));
    TitleWordsIdempotent(Split(name));
  }
}

=== FILE: Schema.dfy ===
/**
 Type inference and the `CREATE TABLE` statement of `clean_data`: each column's dtype
 is mapped to a type token, and the tokens are assembled into the table's DDL.
 A small parser for the DDL reads it back, which shows that the emitted text loses
 nothing: every label and its type are recovered.
 */
module Schema {
  import opened Ascii
  import opened Strings
  import opened Wrappers
  import opened Frames

  const NumericToken := "NUMERIC (12, 0)"
  const IntegerToken := "INTEGER"
  const DateTimeToken := "DATETIME"
  const VarcharOpen := "VARCHAR ("

  const DdlOpen := "CREATE TABLE healthcare_data ("
  const DdlClose := ");"

  /** `col.astype(str).str.len().max()`: the longest rendering, or `None` for an empty
      column (where pandas answers NaN). */
  function MaxLength(cells: seq<string>): (m: Option<nat>)
    ensures m.None? <==> |cells| == 0
    ensures m.Some? ==> forall i :: 0 <= i < |cells| ==> |cells[i]| <= m.value
    ensures m.Some? ==> exists i :: 0 <= i < |cells| && |cells[i]| == m.value
  {
    if |cells| == 0 then None
    else
      var rest := MaxLength(cells[1..]);
      if rest.None? || |cells[0]| >= rest.value then Some(|cells[0]|)
      else
        assert forall i :: 1 <= i < |cells| ==> cells[i] == cells[1..][i - 1];
        rest
  }

  /** `_get_max_length`: `str` of the maximum length, which is `"nan"` for an empty column. */
  function WidthText(cells: seq<string>): (w: string)
    ensures ')' !in w
    ensures |cells| == 0 ==> w == "nan"
    ensures |cells| > 0 ==> exists i :: 0 <= i < |cells| && ParseDecimal(w) == Some(|cells[i]|)
    ensures |cells| > 0 ==> forall i :: 0 <= i < |cells| ==> |cells[i]| <= ParseDecimal(w).value
  {
    match MaxLength(cells)
    case None => "nan"
    case Some(n) => DecimalRoundTrip(n); DecimalString(n)
  }

  /** A `VARCHAR (...)` token whose parenthesised part holds no `)`. */
  predicate IsVarchar(t: string) {
    && |t| >= |VarcharOpen| + 1
    && t[..|VarcharOpen|] == VarcharOpen
    && t[|t| - 1] == ')'
    && ')' !in t[|VarcharOpen|..|t| - 1]
  }

  /** The four shapes of type token `clean_data` produces. */
  predicate IsToken(t: string) {
    t == NumericToken || t == IntegerToken || t == DateTimeToken || IsVarchar(t)
  }

  /** The type token of one column (lines 40-47), or `None` for a dtype none of the four
      tests matches. */
  function TypeToken(c: Column): (r: Option<string>)
    ensures r.Some? <==> !c.dtype.Other?
    ensures r.Some? ==> IsToken(r.value)
  {
    match c.dtype
    case Object => Some(VarcharOpen + WidthText(c.cells) + ")")
    case Float64 => Some(NumericToken)
    case Int64 => Some(IntegerToken)
    case DateTime => Some(DateTimeToken)
    case Other(_) => None
  }

  /** The width inside a `VARCHAR (n)` token, read back as a number. */
  function VarcharWidth(t: string): Option<nat>
  {
    if IsVarchar(t) then ParseDecimal(t[|VarcharOpen|..|t| - 1]) else None
  }

  /** `column_info`, built with an explicit error for an unrecognised dtype: the first
      such column stops the inference. */
  function InferColumns(cols: Table): (r: Result<seq<(string, string)>, CleanError>)
    ensures r.Success? <==> forall i :: 0 <= i < |cols| ==> !cols[i].dtype.Other?
    ensures r.Success? ==> |r.value| == |cols|
    ensures r.Success? ==> forall i :: 0 <= i < |cols| ==>
      r.value[i] == (cols[i].header, TypeToken(cols[i]).value)
    ensures r.Failure? ==> exists i :: (
      && 0 <= i < |cols| && cols[i].dtype.Other?
      && r.error == UnrecognisedDtype(cols[i].header)
      && forall j :: 0 <= j < i ==> !cols[j].dtype.Other?)
  {
    if cols == [] then Success([])
    else
      match TypeToken(cols[0])
      case None => Failure(UnrecognisedDtype(cols[0].header))
      case Some(t) =>
        var rest := InferColumns(cols[1..]);
        assert forall i :: 1 <= i < |cols| ==> cols[i] == cols[1..][i - 1];
        match rest
        case Failure(e) => Failure(e)
        case Success(more) => Success([(cols[0].header, t)] + more)
  }

  /** The loop of lines 39-48 as written: four independent tests, and a column none of
      them matches keeps the token of the column before it, or raises
      `UnboundLocalError` when it is the first. `pending` is the token left over. */
  function InferColumnsFrom(cols: Table, pending: Option<string>): Result<seq<(string, string)>, CleanError>
  {
    if cols == [] then Success([])
    else
      var token := if TypeToken(cols[0]).Some? then TypeToken(cols[0]) else pending;
      match token
      case None => Failure(UnboundTypeToken(cols[0].header))
      case Some(t) =>
        match InferColumnsFrom(cols[1..], token)
        case Failure(e) => Failure(e)
        case Success(more) => Success([(cols[0].header, t)] + more)
  }

  function InferColumnsAsWritten(cols: Table): Result<seq<(string, string)>, CleanError>
  {
    InferColumnsFrom(cols, None)
  }

  /** `f'{col} {dtype}'` for every entry of `column_info`. */
  function Definitions(info: seq<(string, string)>): (ds: seq<string>)
    ensures |ds| == |info|
    ensures forall i :: 0 <= i < |info| ==> ds[i] == info[i].0 + " " + info[i].1
  {
    seq(|info|, i requires 0 <= i < |info| => info[i].0 + " " + info[i].1)
  }

  /** `table_ddl` (line 50) */
  function Ddl(info: seq<(string, string)>): (r: string)
    ensures DdlOpen <= r
    ensures |r| >= |DdlOpen| + |DdlClose| && r[|r| - |DdlClose|..] == DdlClose
  {
    DdlOpen + Join(", ", Definitions(info)) + DdlClose
  }

  // ---------------------------------------------------------------------------
  // Reading a DDL statement back

  /** Reads one type token off the front of `s`; returns it with what follows. */
  function ReadToken(s: string): (r: Option<(string, string)>)
    ensures r.Some? ==> r.value.0 + r.value.1 == s
  {
    if VarcharOpen <= s then
      var w := TakeUntil(')', s[|VarcharOpen|..]);
      if |w| == |s| - |VarcharOpen| then None
      else
        var k := |VarcharOpen| + |w| + 1;
        assert s[..k] + s[k..] == s;
        Some((s[..k], s[k..]))
    else if NumericToken <= s then Some((NumericToken, s[|NumericToken|..]))
    else if IntegerToken <= s then Some((IntegerToken, s[|IntegerToken|..]))
    else if DateTimeToken <= s then Some((DateTimeToken, s[|DateTimeToken|..]))
    else None
  }

  /** Reads one `name type` definition off the front of `s`, where the name runs up to
      the first space; returns it with what follows. */
  function ReadDefinition(s: string): (r: Option<((string, string), string)>)
    ensures r.Some? ==> |r.value.1| < |s|
  {
    var name := TakeUntil(' ', s);
    if |name| == |s| then None
    else
      match ReadToken(s[|name| + 1..])
      case None => None
      case Some((t, rest)) => Some(((name, t), rest))
  }

  /** Reads `name type, name type, ...` where no name holds a space. */
  function ParseDefinitions(s: string): Option<seq<(string, string)>>
    decreases |s|
  {
    match ReadDefinition(s)
    case None => None
    case Some((d, rest)) =>
      if rest == [] then Some([d])
      else if |rest| >= 2 && rest[..2] == ", " then
        match ParseDefinitions(rest[2..])
        case None => None
        case Some(more) => Some([d] + more)
      else None
  }

  /** Reads a whole `CREATE TABLE healthcare_data (...);` statement. */
  function ParseDdl(s: string): Option<seq<(string, string)>>
  {
    if |s| >= |DdlOpen| + |DdlClose| && DdlOpen <= s && s[|s| - |DdlClose|..] == DdlClose then
      var body := s[|DdlOpen|..|s| - |DdlClose|];
      if body == [] then Some([]) else ParseDefinitions(body)
    else None
  }

  /** Column names a DDL statement can carry unambiguously, with well-formed tokens. */
  predicate Describable(info: seq<(string, string)>) {
    forall i :: 0 <= i < |info| ==> ' ' !in info[i].0 && IsToken(info[i].1)
  }

  // ---------------------------------------------------------------------------
  // Properties

  /** An object column's token is `VARCHAR (n)` where n is the length of its longest
      rendering. */
  lemma VarcharIsLongest(c: Column)
    requires c.dtype == Object && |c.cells| > 0
    ensures TypeToken(c).Some?
    ensures var n := VarcharWidth(TypeToken(c).value);
      && n.Some?
      && (forall i :: 0 <= i < |c.cells| ==> |c.cells[i]| <= n.value)
      && (exists i :: 0 <= i < |c.cells| && |c.cells[i]| == n.value)
  {
    var m := MaxLength(c.cells).value;
    var d := DecimalString(m);
    var t := VarcharOpen + d + ")";
    assert t[|VarcharOpen|..|t| - 1] == d;
    DecimalRoundTrip(m);
  }

  /** An object column with no rows gets `VARCHAR (nan)`. */
  lemma VarcharOfEmptyColumn(c: Column)
    requires c.dtype == Object && c.cells == []
    ensures TypeToken(c) == Some("VARCHAR (nan)")
  {
    assert VarcharOpen + "nan" + ")" == "VARCHAR (nan)";
  }

  /** The as-written loop and the explicit-error inference agree whenever every dtype is
      recognised, whatever token is left over. */
  lemma {:induction false} AsWrittenAgreesWhenRecognised(cols: Table, pending: Option<string>)
    requires forall i :: 0 <= i < |cols| ==> !cols[i].dtype.Other?
    ensures InferColumnsFrom(cols, pending) == InferColumns(cols)
  {
    if cols != [] {
      assert forall i :: 0 <= i < |cols| - 1 ==> cols[1..][i] == cols[i + 1];
      AsWrittenAgreesWhenRecognised(cols[1..], TypeToken(cols[0]));
    }
  }

  /** As written, an unrecognised first column raises `UnboundLocalError`. */
  lemma AsWrittenUnboundFirst(cols: Table)
    requires |cols| > 0 && cols[0].dtype.Other?
    ensures InferColumnsAsWritten(cols) == Failure(UnboundTypeToken(cols[0].header))
  {
  }

  /** As written, a `bool` column after an `int64` column is declared `INTEGER`. */
  lemma AsWrittenStaleToken()
    ensures var cols := [Column("patient_age", Int64, ["34"], false), Column("flag", Other("bool"), ["True"], false)];
      && InferColumnsAsWritten(cols) == Success([("patient_age", "INTEGER"), ("flag", "INTEGER")])
      && InferColumns(cols) == Failure(UnrecognisedDtype("flag"))
  {
    var cols := [Column("patient_age", Int64, ["34"], false), Column("flag", Other("bool"), ["True"], false)];
    assert TypeToken(cols[0]) == Some("INTEGER");
    assert cols[1..] == [cols[1]];
    assert [cols[1]][1..] == [];
    var last := [cols[1]];
    assert InferColumnsFrom(last[1..], Some("INTEGER")) == Success([]);
    assert TypeToken(last[0]).None?;
    assert InferColumnsFrom(last, Some("INTEGER")) == Success([("flag", "INTEGER")] + []);
    assert [("flag", "INTEGER")] + [] == [("flag", "INTEGER")];
    assert cols[1..] == last;
    assert InferColumnsFrom(cols, None) == Success([("patient_age", "INTEGER")] + [("flag", "INTEGER")]);
    assert [("patient_age", "INTEGER")] + [("flag", "INTEGER")] == [("patient_age", "INTEGER"), ("flag", "INTEGER")];
  }

  lemma ReadTokenFront(t: string, rest: string)
    requires IsToken(t)
    ensures ReadToken(t + rest) == Some((t, rest))
  {
    var s := t + rest;
    if IsVarchar(t) {
      var inner := t[|VarcharOpen|..|t| - 1];
      assert t[..|VarcharOpen|] == VarcharOpen;
      assert VarcharOpen <= s;
      assert s[|VarcharOpen|..] == inner + [')'] + rest;
      TakeUntilConcat(')', inner, rest);
      var k := |VarcharOpen| + |inner| + 1;
      assert k == |t|;
      assert s[..k] == t;
      assert s[k..] == rest;
    } else {
      assert s[0] == t[0];
      assert !(VarcharOpen <= s);
      if t == NumericToken {
        assert s[..|t|] == t;
      } else if t == IntegerToken {
        assert !(NumericToken <= s);
        assert s[..|t|] == t;
      } else {
        assert !(NumericToken <= s);
        assert !(IntegerToken <= s);
        assert s[..|t|] == t;
      }
    }
  }

  lemma ParseFirstDefinition(name: string, t: string, rest: string)
    requires ' ' !in name && IsToken(t)
    ensures var s := name + " " + t + rest;
      && TakeUntil(' ', s) == name
      && s[|name| + 1..] == t + rest
      && ReadToken(s[|name| + 1..]) == Some((t, rest))
  {
    var s := name + " " + t + rest;
    assert s == name + [' '] + (t + rest);
    TakeUntilConcat(' ', name, t + rest);
    ReadTokenFront(t, rest);
  }

  /** A name without spaces and a well-formed token read back as one definition. */
  lemma ReadDefinitionFront(name: string, t: string, rest: string)
    requires ' ' !in name && IsToken(t)
    ensures ReadDefinition(name + " " + t + rest) == Some(((name, t), rest))
  {
    ParseFirstDefinition(name, t, rest);
  }

  lemma ParseSingleDefinition(name: string, t: string)
    requires ' ' !in name && IsToken(t)
    ensures ParseDefinitions(name + " " + t) == Some([(name, t)])
  {
    ReadDefinitionFront(name, t, []);
    assert name + " " + t + [] == name + " " + t;
  }

  lemma ParseDefinitionThenMore(name: string, t: string, j: string)
    requires ' ' !in name && IsToken(t)
    ensures ParseDefinitions(name + " " + t + (", " + j)) ==
      match ParseDefinitions(j)
      case None => None
      case Some(more) => Some([(name, t)] + more)
  {
    var rest := ", " + j;
    ReadDefinitionFront(name, t, rest);
    assert rest != [] && |rest| >= 2 && rest[..2] == ", " && rest[2..] == j;
  }

  lemma {:induction false} DefinitionsRoundTrip(info: seq<(string, string)>)
    requires |info| > 0 && Describable(info)
    ensures ParseDefinitions(Join(", ", Definitions(info))) == Some(info)
  {
    var name, t := info[0].0, info[0].1;
    var ds := Definitions(info);
    if |info| == 1 {
      ParseSingleDefinition(name, t);
      assert info == [(name, t)];
    } else {
      var j := Join(", ", Definitions(info[1..]));
      assert ds[1..] == Definitions(info[1..]);
      assert Join(", ", ds) == name + " " + t + (", " + j);
      ParseDefinitionThenMore(name, t, j);
      DefinitionsRoundTrip(info[1..]);
      HeadTail(info);
    }
  }

  /** The DDL lists exactly the given definitions, in order, separated by ", " with no
      trailing separator: reading it back returns the column info it was built from. */
  lemma DdlRoundTrip(info: seq<(string, string)>)
    requires Describable(info)
    ensures ParseDdl(Ddl(info)) == Some(info)
  {
    var body := Join(", ", Definitions(info));
    var s := Ddl(info);
    assert s[|DdlOpen|..|s| - |DdlClose|] == body;
    if |info| > 0 {
      DefinitionsRoundTrip(info);
      assert Definitions(info)[0] == info[0].0 + " " + info[0].1;
      assert |info| == 1 ==> body == Definitions(info)[0];
      assert |info| > 1 ==> body == Definitions(info)[0] + ", " + Join(", ", Definitions(info)[1..]);
      assert body != [];
    }
  }

  /** Inference produces column info the DDL can carry, when no header holds a space. */
  lemma InferredInfoDescribable(cols: Table)
    requires InferColumns(cols).Success?
    requires forall i :: 0 <= i < |cols| ==> ' ' !in cols[i].header
    ensures Describable(InferColumns(cols).value)
  {
  }
}

=== FILE: Strings.dfy ===
/**
 The Python `str` operations the cleaner relies on, over ASCII: `lower`, `strip`,
 `split()` on whitespace runs, `split(c)` on one character, `sep.join`, `replace`
 of one character, and `str` of a non-negative integer.
 */
module Strings {
  import opened Ascii
  import opened Wrappers

  /** `s.lower()` */
  function Lower(s: string): (r: string)
    ensures |r| == |s|
    ensures forall i :: 0 <= i < |s| ==> r[i] == ToLower(s[i])
  {
    seq(|s|, i requires 0 <= i < |s| => ToLower(s[i]))
  }

  /** `s.replace(a, b)` for single characters `a` and `b`. */
  function Replace(s: string, a: char, b: char): (r: string)
    ensures |r| == |s|
    ensures forall i :: 0 <= i < |s| ==> r[i] == (if s[i] == a then b else s[i])
  {
    seq(|s|, i requires 0 <= i < |s| => if s[i] == a then b else s[i])
  }

  /** `s.lstrip()`: drops the leading whitespace and nothing else. */
  function LStrip(s: string): (r: string)
    ensures |r| <= |s|
    ensures r == [] || !IsSpace(r[0])
    ensures forall i :: 0 <= i < |s| - |r| ==> IsSpace(s[i])
  {
    if s != [] && IsSpace(s[0]) then LStrip(s[1..]) else s
  }

  /** `s.rstrip()`: drops the trailing whitespace and nothing else. */
  function RStrip(s: string): (r: string)
    ensures r <= s
    ensures r == [] || !IsSpace(r[|r| - 1])
    ensures forall i :: |r| <= i < |s| ==> IsSpace(s[i])
  {
    if s != [] && IsSpace(s[|s| - 1]) then RStrip(s[..|s| - 1]) else s
  }

  /** `s.strip()` */
  function Strip(s: string): (r: string)
    ensures |r| <= |s|
    ensures r == [] || (!IsSpace(r[0]) && !IsSpace(r[|r| - 1]))
  {
    RStrip(LStrip(s))
  }

  /** `lstrip` keeps the suffix of `s` after its leading whitespace. */
  lemma {:induction false} LStripSuffix(s: string)
    ensures LStrip(s) == s[|s| - |LStrip(s)|..]
    decreases |s|
  {
    if s != [] && IsSpace(s[0]) {
      LStripSuffix(s[1..]);
      assert s[1..][|s| - 1 - |LStrip(s)|..] == s[|s| - |LStrip(s)|..];
    }
  }

  /** `strip` keeps a slice of `s` and cuts only whitespace from either end. */
  lemma StripSlice(s: string)
    ensures exists i, j ::
              (0 <= i <= j <= |s| && Strip(s) == s[i..j]
               && (forall k :: 0 <= k < i ==> IsSpace(s[k]))
               && (forall k :: j <= k < |s| ==> IsSpace(s[k])))
  {
    var l := LStrip(s);
    var r := Strip(s);
    LStripSuffix(s);
    var i := |s| - |l|;
    var j := i + |r|;
    assert r <= l;
    assert s[i..j] == l[..|r|];
    forall k | j <= k < |s|
      ensures IsSpace(s[k])
    {
      assert s[k] == l[k - i];
    }
  }

  /** No whitespace at either end. */
  predicate Trimmed(s: string) {
    s == [] || (!IsSpace(s[0]) && !IsSpace(s[|s| - 1]))
  }

  lemma StripTrimmed(s: string)
    requires Trimmed(s)
    ensures Strip(s) == s
  {
  }

  /** A non-empty run of non-whitespace characters, as `split()` returns them. */
  predicate IsWord(w: string) {
    |w| > 0 && forall i :: 0 <= i < |w| ==> !IsSpace(w[i])
  }

  predicate AllWords(ws: seq<string>) {
    forall i :: 0 <= i < |ws| ==> IsWord(ws[i])
  }

  /** The longest prefix of `s` holding no whitespace. */
  function TakeWord(s: string): (w: string)
    ensures w <= s
    ensures forall i :: 0 <= i < |w| ==> !IsSpace(w[i])
    ensures |w| == |s| || IsSpace(s[|w|])
  {
    if s == [] || IsSpace(s[0]) then [] else [s[0]] + TakeWord(s[1..])
  }

  /** `s.split()`: the maximal whitespace-free runs of `s`, in order. */
  function Split(s: string): (ws: seq<string>)
    ensures AllWords(ws)
    decreases |s|
  {
    var t := LStrip(s);
    if t == [] then []
    else
      var w := TakeWord(t);
      assert w != [] by { assert !IsSpace(t[0]); }
      var rest := Split(t[|w|..]);
      assert forall i :: 1 <= i < |rest| + 1 ==> ([w] + rest)[i] == rest[i - 1];
      [w] + rest
  }

  lemma AppendAssoc<T>(a: seq<T>, b: seq<T>, c: seq<T>)
    ensures a + b + c == a + (b + c)
  {
  }

  lemma HeadTail<T>(s: seq<T>)
    requires s != []
    ensures [s[0]] + s[1..] == s
  {
  }

  /** `sep.join(xs)` */
  function Join(sep: string, xs: seq<string>): string
  {
    if |xs| == 0 then ""
    else if |xs| == 1 then xs[0]
    else xs[0] + sep + Join(sep, xs[1..])
  }

  /** `s.split(c)` for a single character `c`: the pieces between the occurrences of `c`. */
  function SplitOn(c: char, s: string): (parts: seq<string>)
    ensures |parts| >= 1
    ensures forall i :: 0 <= i < |parts| ==> c !in parts[i]
  {
    if s == [] then [[]]
    else
      var rest := SplitOn(c, s[1..]);
      if s[0] == c then [[]] + rest else [[s[0]] + rest[0]] + rest[1..]
  }

  /** The longest prefix of `s` not holding `c`. */
  function TakeUntil(c: char, s: string): (w: string)
    ensures w <= s && c !in w
    ensures |w| == |s| || s[|w|] == c
  {
    if s == [] || s[0] == c then [] else [s[0]] + TakeUntil(c, s[1..])
  }

  function DigitChar(d: nat): (c: char)
    requires d < 10
    ensures IsDigit(c)
  {
    ('0' as int + d) as char
  }

  /** `str(n)` for a non-negative integer `n`: its decimal digits, without leading zeros. */
  function DecimalString(n: nat): (r: string)
    ensures |r| > 0
    ensures forall i :: 0 <= i < |r| ==> IsDigit(r[i])
    ensures r[0] == '0' ==> n == 0
  {
    if n < 10 then [DigitChar(n)] else DecimalString(n / 10) + [DigitChar(n % 10)]
  }

  predicate AllDigits(s: string) {
    forall i :: 0 <= i < |s| ==> IsDigit(s[i])
  }

  function DigitsValue(s: string): nat
    requires AllDigits(s)
  {
    if s == [] then 0 else DigitsValue(s[..|s| - 1]) * 10 + (s[|s| - 1] as int - '0' as int)
  }

  /** Reads a non-empty string of decimal digits back as a number. */
  function ParseDecimal(s: string): (r: Option<nat>)
    ensures r.Some? <==> |s| > 0 && AllDigits(s)
  {
    if |s| > 0 && AllDigits(s) then Some(DigitsValue(s)) else None
  }

  // ---------------------------------------------------------------------------
  // Lemmas about the operations above

  /** Decimal rendering is inverted by decimal parsing. */
  lemma {:induction false} DecimalRoundTrip(n: nat)
    ensures ParseDecimal(DecimalString(n)) == Some(n)
  {
    if n >= 10 {
      DecimalRoundTrip(n / 10);
      var p := DecimalString(n / 10);
      var d := DigitChar(n % 10);
      var q := p + [d];
      assert q[..|q| - 1] == p;
      assert q[|q| - 1] as int - '0' as int == n % 10;
      assert DigitsValue(p) == n / 10;
      assert DigitsValue(q) == n / 10 * 10 + n % 10;
      assert n / 10 * 10 + n % 10 == n;
      assert q == DecimalString(n);
    } else {
      var q := [DigitChar(n)];
      assert q[..0] == [];
      assert DigitsValue(q) == n;
    }
  }

  lemma {:induction false} TakeWordConcat(w: string, t: string)
    requires forall i :: 0 <= i < |w| ==> !IsSpace(w[i])
    requires t == [] || IsSpace(t[0])
    ensures TakeWord(w + t) == w
  {
    if w != [] {
      assert (w + t)[1..] == w[1..] + t;
      TakeWordConcat(w[1..], t);
    }
  }

  lemma {:induction false} TakeWordAppendSpace(t: string, c: char)
    requires IsSpace(c)
    ensures TakeWord(t + [c]) == TakeWord(t)
  {
    if t != [] && !IsSpace(t[0]) {
      assert (t + [c])[1..] == t[1..] + [c];
      TakeWordAppendSpace(t[1..], c);
    }
  }

  lemma {:induction false} LStripAppend(x: string, y: string)
    ensures LStrip(x) != [] ==> LStrip(x + y) == LStrip(x) + y
    ensures LStrip(x) == [] ==> LStrip(x + y) == LStrip(y)
  {
    if x != [] {
      assert (x + y)[0] == x[0];
      assert (x + y)[1..] == x[1..] + y;
      if IsSpace(x[0]) {
        LStripAppend(x[1..], y);
      }
    } else {
      assert x + y == y;
    }
  }

  /** A trailing whitespace character does not change the words. */
  lemma {:induction false} SplitAppendSpace(x: string, c: char)
    requires IsSpace(c)
    ensures Split(x + [c]) == Split(x)
    decreases |x|
  {
    var t := LStrip(x);
    LStripAppend(x, [c]);
    if t == [] {
      assert LStrip([c]) == [];
    } else {
      var w := TakeWord(t);
      TakeWordAppendSpace(t, c);
      assert LStrip(x + [c]) == t + [c];
      assert (t + [c])[|w|..] == t[|w|..] + [c];
      SplitAppendSpace(t[|w|..], c);
    }
  }

  lemma {:induction false} SplitRStrip(x: string)
    ensures Split(RStrip(x)) == Split(x)
    decreases |x|
  {
    if x != [] && IsSpace(x[|x| - 1]) {
      var y := x[..|x| - 1];
      assert x == y + [x[|x| - 1]];
      SplitAppendSpace(y, x[|x| - 1]);
      SplitRStrip(y);
    }
  }

  lemma SplitLStrip(x: string)
    ensures Split(LStrip(x)) == Split(x)
  {
    assert LStrip(LStrip(x)) == LStrip(x);
  }

  /** Stripping first does not change what `split()` returns. */
  lemma SplitStrip(x: string)
    ensures Split(Strip(x)) == Split(x)
  {
    SplitRStrip(LStrip(x));
    SplitLStrip(x);
  }

  lemma {:induction false} JoinWordsShape(ws: seq<string>)
    requires AllWords(ws)
    ensures |ws| > 0 ==> Join(" ", ws) != [] && !IsSpace(Join(" ", ws)[0])
    ensures WellSpaced(Join(" ", ws))
  {
    if |ws| >= 2 {
      var w := ws[0];
      var j := Join(" ", ws[1..]);
      JoinWordsShape(ws[1..]);
      var r := w + " " + j;
      assert Join(" ", ws) == r;
      forall i | 0 <= i < |r| && IsSpace(r[i])
        ensures r[i] == ' '
      {
        if i > |w| {
          assert r[i] == j[i - |w| - 1];
        }
      }
      forall i | 0 <= i < |r| - 1 && r[i] == ' '
        ensures r[i + 1] != ' '
      {
        if i > |w| {
          assert r[i] == j[i - |w| - 1];
          assert r[i + 1] == j[i - |w|];
        } else if i == |w| {
          assert r[i + 1] == j[0];
        }
      }
    }
  }

  /** Only single spaces separate the characters, and none stands at either end. */
  predicate WellSpaced(r: string) {
    && Trimmed(r)
    && (forall i :: 0 <= i < |r| && IsSpace(r[i]) ==> r[i] == ' ')
    && (forall i :: 0 <= i < |r| - 1 && r[i] == ' ' ==> r[i + 1] != ' ')
  }

  /** A word followed by whitespace (or nothing) is the first word `split()` finds. */
  lemma SplitLeadingWord(w: string, rest: string)
    requires IsWord(w)
    requires rest == [] || IsSpace(rest[0])
    ensures Split(w + rest) == [w] + Split(rest)
  {
    var s := w + rest;
    assert s[0] == w[0];
    assert LStrip(s) == s;
    TakeWordConcat(w, rest);
    assert s[|w|..] == rest;
  }

  /** Whitespace in front of the text adds no word to `split()`. */
  lemma SplitLeadingSpace(c: char, s: string)
    requires IsSpace(c)
    ensures Split([c] + s) == Split(s)
  {
    assert ([c] + s)[1..] == s;
    assert LStrip([c] + s) == LStrip(s);
  }

  /** `split()` undoes `' '.join` of words. */
  lemma {:induction false} SplitJoin(ws: seq<string>)
    requires AllWords(ws)
    ensures Split(Join(" ", ws)) == ws
  {
    if |ws| == 1 {
      SplitLeadingWord(ws[0], []);
      assert ws[0] + [] == ws[0];
    } else if |ws| >= 2 {
      var w, j := ws[0], Join(" ", ws[1..]);
      assert Join(" ", ws) == w + (" " + j);
      assert Split(w + (" " + j)) == [w] + Split(" " + j) by {
        JoinWordsShape(ws[1..]);
        SplitLeadingWord(w, " " + j);
      }
      assert Split(" " + j) == Split(j) by {
        SplitLeadingSpace(' ', j);
      }
      assert Split(j) == ws[1..] by {
        SplitJoin(ws[1..]);
      }
      HeadTail(ws);
    }
  }

  lemma {:induction false} SplitOnWithout(c: char, x: string)
    requires c !in x
    ensures SplitOn(c, x) == [x]
  {
    if x != [] {
      SplitOnWithout(c, x[1..]);
      HeadTail(x);
    }
  }

  lemma {:induction false} SplitOnPrefix(c: char, x: string, y: string)
    requires c !in x
    ensures SplitOn(c, x + [c] + y) == [x] + SplitOn(c, y)
  {
    if x == [] {
      assert ([c] + y)[1..] == y;
      assert x + [c] + y == [c] + y;
    } else {
      var s := x + [c] + y;
      assert s[0] == x[0];
      assert s[1..] == x[1..] + [c] + y;
      SplitOnPrefix(c, x[1..], y);
      HeadTail(x);
    }
  }

  /** `s.split(c)` undoes `c.join` of pieces that do not hold `c`. */
  lemma {:induction false} SplitOnJoin(c: char, xs: seq<string>)
    requires |xs| >= 1
    requires forall i :: 0 <= i < |xs| ==> c !in xs[i]
    ensures SplitOn(c, Join([c], xs)) == xs
  {
    if |xs| == 1 {
      SplitOnWithout(c, xs[0]);
    } else {
      SplitOnPrefix(c, xs[0], Join([c], xs[1..]));
      SplitOnJoin(c, xs[1..]);
      HeadTail(xs);
    }
  }

  /** `c.join` undoes `s.split(c)`, for every string. */
  lemma {:induction false} JoinSplitOn(c: char, s: string)
    ensures Join([c], SplitOn(c, s)) == s
  {
    if s != [] {
      var rest := SplitOn(c, s[1..]);
      JoinSplitOn(c, s[1..]);
      if s[0] == c {
        assert Join([c], [[]] + rest) == [] + [c] + Join([c], rest);
      } else {
        var p := [[s[0]] + rest[0]] + rest[1..];
        if |rest| == 1 {
          assert Join([c], p) == [s[0]] + rest[0];
        } else {
          assert p[1..] == rest[1..];
          assert Join([c], p) == [s[0]] + rest[0] + [c] + Join([c], rest[1..]);
        }
      }
      assert s == [s[0]] + s[1..];
    }
  }

  /** A character in neither the separator nor the pieces is not in the joined string. */
  lemma {:induction false} JoinWithout(c: char, sep: string, xs: seq<string>)
    requires c !in sep
    requires forall i :: 0 <= i < |xs| ==> c !in xs[i]
    ensures c !in Join(sep, xs)
  {
    if |xs| >= 2 {
      JoinWithout(c, sep, xs[1..]);
    }
  }

  lemma {:induction false} TakeUntilConcat(c: char, x: string, y: string)
    requires c !in x
    ensures TakeUntil(c, x + [c] + y) == x
  {
    if x != [] {
      assert (x + [c] + y)[1..] == x[1..] + [c] + y;
      TakeUntilConcat(c, x[1..], y);
    }
  }
}

=== FILE: Wrappers.dfy ===
/** Failure-compatible result types shared by the whole model. */
module Wrappers {

  /** A value that may be absent; stands for Python's `None`. */
  datatype Option<+T> = None | Some(value: T)

  /** Either a computed value or the error a Python exception would carry. */
  datatype Result<+R, +E> = Success(value: R) | Failure(error: E) {

    predicate IsFailure() {
      Failure?
    }

    function PropagateFailure<U>(): Result<U, E>
      requires Failure?
    {
      Failure(error)
    }

    function Extract(): R
      requires Success?
    {
      value
    }
  }
}
